=== FILE: README.md ===
# CircleList ring-buffer carousel, modelled in Dafny

`CircleList` is a React Native component. It lays a long list of items out on a
circle that the user can drag or scroll. Only `elementCount` ring slots exist
at any time. The component keeps a ring buffer `displayData` of `elementCount`
items, taken from a data list that may be much longer. It also keeps:

- two data cursors (`dataIndexLeft`, `dataIndexRight`) and two insertion
  cursors (`insertionIndexLeft`, `insertionIndexRight`), one pair at each edge
  of a window of `2 * visibilityPadding + 3` slots;
- the selected data index `dataIndex`;
- a rotation offset, snapped to multiples of the slot angle `2π / elementCount`;
- the set `visibleDataBounds` of data indices that may be rendered.

When a drag or a programmatic scroll turns the ring past a slot, the data
index moves one place. Both cursor pairs then step the same way, and the two
edge slots are rebound to the data items that have just come into reach.

This project models that bookkeeping as pure functions over immutable states:

- **RingMath**: the wrap-once index step, its closed form as Euclidean `%`,
  and supporting facts about `%`.
- **Binding**: index tagging, the initial head-and-tail window (including how
  JavaScript's `slice` treats a fractional `elementCount / 2`), the two-slot
  rebinding, and paired cursor stepping.
- **Geometry**: the snap breakpoints, the closest-slot search with its
  leftward special case for slot 0, the one-revolution reset, snap offsets,
  and the rendered window.
- **Controller**: the constructor, a drag move, a drag release, and
  `scrollToIndex` as a sequence of steps followed by a snap. The
  `onScrollBegin`/`onScroll`/`onScrollEnd` notifications are recorded in a
  log.
- **Coherence**: the invariant tying the ring buffer to `dataIndex`, and
  proofs that the constructor establishes it and that a move, a release and
  the corrected `scrollToIndex` keep it.
- **ScrollDesync**: a concrete run in which `scrollToIndex` as written breaks
  that invariant, and the corrected version does not.
- **Layout**: the filter that decides which slots `CircleListLayout` renders,
  and what each rendered child carries.
- **MockData**: the example application's generated data.

The upper-bound test of `_getVisibleElements` is a parameter, `Geometry.BoundsRule`,
of the constructor, the drag move and the scroll steps. `AsWrittenBounds`
gives the component as written and `CorrectedBounds` the fix of the finding
at src/CircleList.js:398-399.
The invariant proofs hold under both.

Angles are exact reals, with `π` written as the 16-digit decimal JavaScript
uses. The drag rate `thetaOffset`, which the source computes with `acos` from
the finger position, is an input to `Move`.

## Model

| member | source | states |
|---|---|---|
| RingMath.Step | src/CircleList.js:279-292 | For an in-range index, the wrap-once step lands on `(i + 1) mod length` going left and `(i - 1) mod length` going right, so it stays in range |
| RingMath.StepInverse | src/CircleList.js:279-292 | A left step followed by a right step returns to the start, and so does a right step followed by a left step |
| RingMath.IterateClosedForm | src/CircleList.js:279-292 | `k` successive steps from an in-range index land on `(i + k) mod length` going left and `(i - k) mod length` going right |
| Binding.AssignIndexes | src/CircleList.js:232-241 | Each tag names its own position, and removing the tags gives the original data back (for plain-object items without their own `_dataIndex`; see Left out) |
| Binding.ClampIndex | src/CircleList.js:348 | The position `slice` derives from a possibly fractional, possibly negative index always lies in `[0, length]` |
| Binding.OffsetData | src/CircleList.js:344-349 | When `0 <= elementCount <= length`, the initial window has exactly `elementCount` slots: the first `elementCount / 2` items (rounded down), then the last `elementCount / 2` items (rounded up), even when the JavaScript half is fractional |
| Binding.CorrectedOffsetData | src/CircleList.js:344-349 | The intended split, rounded up at the head: for `0 <= n <= length`, `n` slots, the first `n - n / 2` items and then the last `n / 2`. It equals the split as written for an even `n`; for an odd `n` it differs from it in the middle slot `n / 2` alone, which holds `data[n / 2]` instead of `data[length - n / 2 - 1]` |
| Binding.DisplayData | src/CircleList.js:294-301 | The rebound window keeps its length, slot `insertionIndexRight` holds `data[dataIndexRight]`, slot `insertionIndexLeft` holds `data[dataIndexLeft]` unless the two slots coincide, and every other slot is unchanged |
| Binding.ShiftCursors | src/CircleList.js:303-342 | For in-range cursors, both move by the same ±1 around the ring, stay in range, and keep the circular gap between them |
| Geometry.Theta | src/CircleList.js:50-59 | The slot angle is positive, and `elementCount` slot angles make one full turn `2π` |
| Geometry.BreakpointsFrom | src/CircleList.js:250-258 | The inner recursion emits the angles `count * θ`, `(count + 1) * θ`, … up to slot `elementCount - 1`, and always at least one angle |
| Geometry.Breakpoints | src/CircleList.js:249-261 | For a positive count there is one breakpoint per slot, slot `i` at `i * θ`; a non-positive count still yields the single angle 0 |
| Geometry.Minimum | src/CircleList.js:276 | `Math.min` of a non-empty list is one of its elements and no larger than any of them |
| Geometry.IndexOf | src/CircleList.js:276 | `indexOf` returns -1 exactly when the value is absent; otherwise it returns a position holding the value with no earlier one |
| Geometry.ClosestIndex | src/CircleList.js:263-277 | With no breakpoints the answer is -1; otherwise it is the first slot whose distance is minimal |
| Geometry.ClosestIndexMatchesSource | src/CircleList.js:263-277 | The first-minimum scan over the three-case distances equals `offsets.indexOf(Math.min(...offsets))` whenever there is a breakpoint |
| Geometry.ClosestIndexDirection | src/CircleList.js:264-274 | The two swipe directions can give different answers only at a non-negative offset, and then one of the two answers is slot 0 |
| Geometry.ResetRevolution | src/CircleList.js:97-102 | The reset moves the offset by at most one revolution; offsets within two turns land within one turn; offsets already within one turn are kept |
| Geometry.SnapOffset | src/CircleList.js:194 | Over a ring's own breakpoints, the snap offset `2π - breakpoints[i]` (computed here on release and again at line 590 at the end of `scrollToIndex`) is `elementCount - i` whole slot angles and lies in `(0, 2π]` |
| Geometry.SnapIsStable | src/CircleList.js:184-198 | The snap offset of slot `i` is `2π - i * θ` and lies in `(0, 2π]`. Querying there returns `i` again, except that slot 0 snaps to `2π`, where a leftward query returns slot 1 |
| Geometry.ClosestAtRest | src/CircleList.js:263-277 | At offset 0 with at least two slots, a leftward query returns slot 0 and a rightward one returns the last slot |
| Geometry.ClosestJustBelowRest | src/CircleList.js:263-277 | Any offset within half a slot angle below 0 returns slot 0 in either direction |
| Geometry.Run | src/CircleList.js:401-410 | The bounds recursion appends `current + 1, current + 2, …` up to `bound`, and always appends at least one value |
| Geometry.VisibleElementsAsWritten | src/CircleList.js:392-442 | The window as written, which wraps the upper bound only once it exceeds `length`, holds only values in `[0, length]` |
| Geometry.VisibleElements | src/CircleList.js:392-442 | The corrected window, which wraps the upper bound once it reaches `length`, also holds only values in `[0, length]` |
| Geometry.VisibleWindowShape | src/CircleList.js:392-442 | The window as written is the run from `dataIndex - padding - 1` to `dataIndex + padding + 1` when that fits. Otherwise it is the run from the wrapped lower bound up to `length` itself, followed by the run from 0 up to the wrapped upper bound |
| Geometry.VisibleWindowAsWrittenCovers | src/CircleList.js:392-442 | The window as written holds only values in `[0, length]`. It holds every index within `padding + 1` places of `dataIndex`, except the one that would sit at position `length` |
| Geometry.VisibleWindowCovers | src/CircleList.js:392-442 | The corrected window holds only values in `[0, length]`, and every index within `padding + 1` places of `dataIndex` |
| Geometry.VisibleWindowSeamCounterexample | src/CircleList.js:396-399 | With 40 items, padding 3 and `dataIndex` 36, the window as written lacks index 0 although 0 is 4 places ahead, and holds the non-existent index 40 instead; the corrected window holds 0 |
| Controller.Init | src/CircleList.js:39-61 | The data is tagged with positions. The window is the head-and-tail split. Index 0 is selected with no rotation, no scrolling and an empty log. The data cursors are `length - padding - 1` and `padding + 1`, the insertion cursors `elementCount - padding - 1` and `padding + 1`. The rendered window is that of index 0 under the bounds rule. For `0 <= padding` and `elementCount <= length`, the state is valid exactly when `padding + 2 <= elementCount` |
| Controller.InitCorrected | src/CircleList.js:39-61 | The constructor with the corrected split: every field as in `Controller.Init` except the window. It equals `Controller.Init` for an even `elementCount`, and for an odd one differs from it in the middle slot alone |
| Controller.RingBreakpoints | src/CircleList.js:50 | The state's breakpoints list one angle per slot, slot `i` at `i * θ` |
| Controller.Closest | src/CircleList.js:105-110 | The closest slot over the ring's breakpoints is a valid slot |
| Controller.Slide | src/CircleList.js:114-128 | Sliding keeps the state valid. All four cursors move one place in the swipe direction, and the window is rebound at the new cursors. Nothing else changes |
| Controller.Move | src/CircleList.js:73-171 | A zero `dx` changes nothing. Otherwise the offset becomes the reset offset minus `thetaOffset`, scrolling starts, and the log gains `ScrollBegin` (first move only) and then `Scroll(new dataIndex)`. When the closest slot changes: the data index and all four cursors step, the window is rebound, and the rendered window is computed under the bounds rule (as written or corrected) from the data index as it was before the step. When it does not change: only the offset, the scrolling flag and the log change |
| Controller.Snap | src/CircleList.js:184-198 | Snapping selects the closest slot, sets the offset to `2π` minus that slot's breakpoint, stops scrolling and logs `ScrollEnd(dataIndex)`. The data, the window and `selectedIndex` are unchanged |
| Controller.Release | src/CircleList.js:173-226 | A zero `dx` changes nothing. Any other release snaps, because the instance field the source compares against is never assigned |
| Controller.ScrollPlan | src/CircleList.js:351-378 | For distinct in-range indices, the step count is the shorter circular distance, between 1 and `length / 2` |
| Controller.ScrollPlanLands | src/CircleList.js:351-378 | Taking the plan's step count in the plan's direction from `dataIndex` reaches `index` |
| Controller.ScrollStep | src/CircleList.js:513-577 | A scroll step keeps the state valid and moves the data index one place in the scroll direction. The offset becomes the reset offset plus or minus one slot angle, 1.1 slot angles on the last step. `selectedIndex` becomes the closest slot at the new offset. When the policy rebinds (always for the corrected policy; as written, only when the closest slot differs from the `rotationIndex` captured when the scroll began), all four cursors step, the window is rebound, `rotationIndex` takes the selected slot and the rendered window is recomputed from the new data index. Otherwise nothing else changes. The data, the log and the scrolling flag are never touched |
| Controller.ScrollSteps | src/CircleList.js:513-581 | The step recursion keeps the state valid and moves the data index `max(stepCount - count, 1)` places |
| Controller.ScrollToIndexWith | src/CircleList.js:502-624 | Under any bounds rule and policy: scrolling to the current index changes nothing. Any other call logs `ScrollBegin(start)` and `ScrollEnd(end)`, stops scrolling, and leaves the offset snapped to a valid slot |
| Controller.ScrollToIndexAsWritten | src/CircleList.js:502-624 | As written (window as written, rebind guarded by the captured `rotationIndex`), `scrollToIndex` still brings `dataIndex` to any in-range target. Scrolling to the current index changes nothing. Any other call logs `ScrollBegin(start)` and `ScrollEnd(end)`, stops scrolling, and leaves the offset snapped to a valid slot |
| Controller.ScrollToIndex | src/CircleList.js:502-624 | The scroll with the rebind on every step, under either bounds rule, reaches an in-range target. Scrolling to the current index changes nothing. Any other call logs `ScrollBegin(start)` and `ScrollEnd(end)`, stops scrolling, and leaves the offset snapped to a valid slot |
| Controller.ScrollToIndexLands | src/CircleList.js:511-581 | Under either bounds rule and either window policy, an in-range target is reached |
| Coherence.InitCoherent | src/CircleList.js:39-61 | The constructor yields a coherent state (cursors aligned, each window slot holding the item at the matching distance from `dataIndex`, rendered window near `dataIndex`) under either bounds rule, when `2 * padding + 4 <= elementCount <= length` |
| Coherence.CorrectedInitCoherent | src/CircleList.js:39-61 | With the corrected split, the constructor is coherent under either bounds rule for every `2 * padding + 3 <= elementCount <= length`, the smallest ring that holds the window included |
| Coherence.OddSplitLosesItem | src/CircleList.js:344-349 | With `elementCount == 2 * padding + 3 < length`, the constructor as written is not coherent. After one leftward drag that changes the closest slot, index 1 is selected and the rendered window holds item `padding + 1`, but no slot of the ring holds it |
| Coherence.SlideCoherent | src/CircleList.js:113-139 | Sliding the ring buffer while the data index takes the same step keeps the state coherent |
| Coherence.MoveCoherent | src/CircleList.js:73-171 | Every drag move keeps the state coherent, with the window as written or corrected |
| Coherence.MoveStepCoherent | src/CircleList.js:113-139 | A drag move that changes the closest slot keeps the state coherent: the ring buffer slides in step with the data index |
| Coherence.ReleaseCoherent | src/CircleList.js:173-226 | Every drag release keeps the state coherent, under either bounds rule |
| Coherence.ScrollStepCoherent | src/CircleList.js:553-577 | A scroll step that rebinds the ring buffer keeps the state coherent, under either bounds rule |
| Coherence.ScrollStepsCoherent | src/CircleList.js:513-581 | Any number of scroll steps that rebind keep the state coherent, under either bounds rule |
| Coherence.ScrollToIndexCoherent | src/CircleList.js:502-624 | `scrollToIndex` with the rebind on every step keeps the state coherent, whatever the target and under either bounds rule |
| Coherence.CoherentWindowCovers | src/CircleList.js:129 | In a coherent state with the corrected window, every data index within `padding` places of `dataIndex` is in the rendered window, even when that window lags one step behind a drag |
| Coherence.DragMissesSeamItem | src/CircleList.js:113-141 | With the window as written, 40 items, padding 3 and `dataIndex` 36, a leftward drag that changes the closest slot keeps the state coherent and selects 37. But the rendered window, computed from 36, lacks index 0, which is 3 places ahead. The same drag with the corrected window holds 0 |
| ScrollDesync.ScrollDesyncsCursors | src/CircleList.js:565-577 | The run below starts from a coherent state. As written, it ends with `dataIndex` 4 but `dataIndexLeft` 2 instead of 3, so it is no longer coherent |
| ScrollDesync.ScrollKeepsCursors | src/CircleList.js:565-577 | The corrected scroll over the same run ends with `dataIndex` 4, `dataIndexLeft` 3, and a coherent state |
| Layout.RenderFrom | src/CircleListLayout.js:19-43 | Each child shows a slot that passes the four-way test and is built from that slot. Slots appear in increasing order |
| Layout.RenderFromComplete | src/CircleListLayout.js:19-43 | A slot from `from` on has a child if and only if it passes the test |
| Layout.Render | src/CircleListLayout.js:19-43 | There are at most as many children as slots. Each child is the entry built for its slot: key `keyExtractor(item, slot)`, the slot's `translateX` and `translateY` (and `scale` if present), and `renderItem(untagged item, _dataIndex)`. Slots are strictly increasing. A slot is rendered exactly when its `translateX` and `translateY` exist and its `_dataIndex` is in `visibleDataBounds` |
| Layout.SelectedNeighbourhoodRendered | src/CircleListLayout.js:26-39 | In a state kept coherent with the corrected window and with every slot animated, each item within `padding` places of the selected one is rendered, in the slot that holds it, through `renderItem` on that item and its index |
| Layout.AsWrittenDragHidesSeamItem | src/CircleListLayout.js:26-39 | After the drag of `DragMissesSeamItem`, with the window as written, the slot holding item 0 (3 places ahead of the selected item) has no child, whatever the animated values |
| MockData.Calc | example/src/mockData/index.js:3-15 | The recursion appends the items `count`, `count + 1`, … up to `elementCount`, each with `id == value ==` its number, and always appends at least one |
| MockData.GenerateMockData | example/src/mockData/index.js:2-20 | For `n >= 0` there are `n + 1` items; for `n <= 0` the result is the single item 0. Item `i` has `id == value == i`, so `mockData` holds 0 to 40 |

## Left out

- Transforms (`_getTransforms`), `_calcHeight`, `cos`, `sin` and `acos`: floating-point trigonometry only positions the slots on screen. The drag rate `thetaOffset` is an input.
- Animated values, springs, timings and `stepDuration`: every animation completes at once. Every `setState` takes effect immediately, so a scroll's `scrolling: false` is set at its end.
- `_setElementPositions`, `componentDidMount`, `componentDidUpdate`, `_innerRef`, the JSX tree, the styles and the pan-responder configuration: these are presentation and wiring. `Layout.Render` models the one decision `CircleListLayout` makes.
- Binding.AssignIndexes: items are opaque values, and a tag is a separate field beside the item. So the round trip "removing the tags gives the data back" holds for the source only for plain-object items without a `_dataIndex` of their own. The source spreads each item into a new object (`{...item, _dataIndex}`) and untags by destructuring. That loses an item's own `_dataIndex`, turns a string or number item into a plain object, and drops the prototype.
- `_assignIndexes` on a missing `data` (returns `undefined`): the model's data is always a list.
- NaN, `Infinity` and rounding: reals are exact. `elementCount` and `visibilityPadding` are integers, and the controller assumes at least one slot.
- The notification callbacks: each call is recorded in the log whether or not the prop is set.
- `_getVisibleElements` reads `props.data` while the rest reads `state.data`: both are taken to have the same length.
- The release handler's comparison with `this.rotationIndex`: that field is never assigned, so the comparison always succeeds and every release snaps. `Controller.Release` keeps the unreachable branch behind a constant.
- Coherence.InitCoherent: requires `elementCount >= 2 * visibilityPadding + 4`, because the constructor as written is not coherent at `2 * visibilityPadding + 3` (with more items than slots). There the odd split puts `data[length - padding - 2]` in slot `padding + 1`, where `data[padding + 1]` belongs. A leftward rebind writes slots `padding + 2` and `padding + 3` and leaves that slot alone, so the wrong item can stay there for up to `2 * padding + 1` leftward steps. Only a rightward rebind, or the left insertion cursor coming round to it, repairs it. Meanwhile an item inside the rendered window has no slot. This is the finding at src/CircleList.js:344-349; `Coherence.CorrectedInitCoherent` covers that ring size with the corrected split.
- Coherence.CoherentWindowCovers: covers `padding` places either side rather than `padding + 1`, because a drag computes the rendered window from the data index as it was before the step. It is proved for the corrected window only: with the window as written it fails at the seam, as `Coherence.DragMissesSeamItem` shows.
- Layout.SelectedNeighbourhoodRendered: proved for the corrected window only. With the window as written, the item at the seam can go unrendered, as `Layout.AsWrittenDragHidesSeamItem` shows.
- Controller.ScrollToIndex, Controller.ScrollToIndexWith and Controller.ScrollToIndexAsWritten: the offset is only stated to be snapped to some valid slot. Which slot the final snap picks depends on the accumulated angle.
- Controller.Valid: the transitions are defined only on states with `|displayData| == elementCount` and every cursor in range. Data shorter than `elementCount` is outside the model: there `_getOffsetData` yields fewer slots and `_getDisplayData` writes past the end. So is data with fewer than `padding + 2` items, where the cursors start out of range. `Controller.Init` states exactly when its result is valid.
- The example `App`, `CircleListItem` and the package's tests are outside this model.

## Findings

| source | as written | input that shows it | evidently intended | confidence | as-written member | corrected member |
|---|---|---|---|---|---|---|
| src/CircleList.js:510-577 | `scrollToIndex` reads `rotationIndex` once, when the call begins. A step rebinds the ring buffer only if its new rotation index differs from that captured value, but the data index moves on every step | 4 slots, padding 0, 10 items: release a leftward drag at rest (snaps to slot 0), then `scrollToIndex(4)`. The fourth step lands on slot 0 again and skips the rebind, so `dataIndex` is 4 but `dataIndexLeft` is 2 instead of 3 | The ring buffer slides on every step, as it does during a drag, so the cursors stay `padding + 1` places either side of `dataIndex` | not executed; proved on the model | ScrollDesync.ScrollDesyncsCursors | Coherence.ScrollToIndexCoherent |
| src/CircleList.js:398-399 | The upper bound of the rendered window wraps only when it exceeds `length`. A bound equal to `length` is kept, and index 0 is left out | 40 items, padding 3, `dataIndex` 36: the window is 32 to 40. It holds the non-existent index 40 but not index 0, which is 4 places ahead | Wrap the upper bound once it reaches `length`, as the lower bound wraps once it drops below 0 | not executed; proved on the model | Geometry.VisibleWindowSeamCounterexample | Geometry.VisibleWindowCovers |
| src/CircleList.js:344-349 | `_getOffsetData` takes `elementCount / 2` items from the head and from the tail. For an odd `elementCount`, `slice` rounds the head down and the tail up, so the middle slot holds a tail item. When `elementCount == 2 * visibilityPadding + 3`, that middle slot is slot `visibilityPadding + 1`, where the item `visibilityPadding + 1` places after index 0 belongs | 9 slots, padding 3, 40 items: slot 4 holds item 35 instead of item 4. A leftward drag that changes the closest slot selects index 1 and renders the window of index 0, which holds item 4, but it rebinds slots 5 and 6 only. No slot holds item 4, three places ahead of the selected item | Round the head up, so the odd slot goes next to the items after index 0, and the constructor's window matches its cursors for every ring that can hold the window | not executed; proved on the model | Coherence.OddSplitLosesItem | Coherence.CorrectedInitCoherent |

For the finding at src/CircleList.js:510-577, `Controller.ScrollToIndexAsWritten` models the captured comparison, and `Controller.ScrollToIndex` rebinds on every step. In the run above, comparing against the rotation index as it stood before each step would also rebind on every step. Both runs use the rendered window as written, so they differ in the rebind guard alone. For the finding at src/CircleList.js:344-349, `Binding.OffsetData` and `Controller.Init` keep the split as written, and `Binding.CorrectedOffsetData` and `Controller.InitCorrected` are the corrected ones. The two differ only for an odd `elementCount`. The invariant lemmas start from any coherent state, so they apply after either constructor. For the finding at src/CircleList.js:398-399, `Geometry.VisibleElementsAsWritten` is the window as written and `Geometry.VisibleElements` the corrected one; `Coherence.DragMissesSeamItem` and `Layout.AsWrittenDragHidesSeamItem` show the consequence for a drag.

=== FILE: binding.dfy ===
/**
 * How data items are bound to ring slots in `CircleList` (src/CircleList.js):
 * tagging items with their position, the initial display window taken from
 * the head and tail of the data, the two-slot update of the display window,
 * and the paired cursor stepping that drives it.
 */
module Binding {
  import opened RingMath

  /** A caller item together with the `_dataIndex` field the component adds. */
  datatype Tagged<T> = Tagged(item: T, dataIndex: int)

  /** The items of a tagged list, without their tags. */
  function UntagAll<T>(ts: seq<Tagged<T>>): (r: seq<T>)
    ensures |r| == |ts|
  {
    seq(|ts|, i requires 0 <= i < |ts| => Untag(ts[i]))
  }

  /** The item without its `_dataIndex` field. */
  function Untag<T>(t: Tagged<T>): T {
    t.item
  }

  /**
   * `_assignIndexes`: tag each item with its position in `data`.  Removing
   * the tags gives the data back, and each tag names its own position.
   */
  function AssignIndexes<T>(data: seq<T>): (r: seq<Tagged<T>>)
    ensures UntagAll(r) == data
    ensures forall i :: 0 <= i < |r| ==> r[i].dataIndex == i
  {
    seq(|data|, i requires 0 <= i < |data| => Tagged(data[i], i))
  }

  // ---------------------------------------------------------------------------
  // Array.prototype.slice on a JavaScript number
  // ---------------------------------------------------------------------------

  /** `ToIntegerOrInfinity` on a finite number: truncation toward zero. */
  function Truncate(x: real): int {
    if x >= 0.0 then x.Floor else -((-x).Floor)
  }

  /** How `slice` turns a relative index into a position in `[0, length]`. */
  function ClampIndex(relative: real, length: int): (k: int)
    requires length >= 0
    ensures 0 <= k <= length
  {
    var t := Truncate(relative);
    if t < 0 then (if length + t > 0 then length + t else 0)
    else if t < length then t else length
  }

  /** `s.slice(start, end)`. */
  function Slice<T>(s: seq<T>, start: real, end: real): seq<T> {
    var a := ClampIndex(start, |s|);
    var b := ClampIndex(end, |s|);
    if a < b then s[a..b] else []
  }

  /** `s.slice(start)`. */
  function SliceFrom<T>(s: seq<T>, start: real): seq<T> {
    s[ClampIndex(start, |s|)..]
  }

  // ---------------------------------------------------------------------------
  // Display window
  // ---------------------------------------------------------------------------

  /**
   * `_getOffsetData`: the first `elementCount / 2` items followed by the items
   * from `length - elementCount / 2` on, where `elementCount / 2` is a
   * JavaScript division and may be fractional.  For
   * `0 <= elementCount <= length` that is exactly `elementCount` slots: the
   * first `elementCount / 2` items rounded down, then the last
   * `elementCount / 2` items rounded up.
   */
  function OffsetData<T>(data: seq<T>, elementCount: int): (r: seq<T>)
    ensures 0 <= elementCount <= |data| ==>
      && |r| == elementCount
      && r == data[..elementCount / 2] + data[|data| - (elementCount - elementCount / 2)..]
  {
    var half := elementCount as real / 2.0;
    var r := Slice(data, 0.0, half) + SliceFrom(data, |data| as real - half);
    if 0 <= elementCount <= |data| then
      HalfSlices(data, elementCount, r);
      r
    else
      r
  }

  /** Where the two `slice` calls of `_getOffsetData` cut, for a possibly odd `n`. */
  lemma HalfSlices<T>(data: seq<T>, n: int, r: seq<T>)
    requires 0 <= n <= |data|
    requires r == Slice(data, 0.0, n as real / 2.0) + SliceFrom(data, |data| as real - n as real / 2.0)
    ensures |r| == n
    ensures r == data[..n / 2] + data[|data| - (n - n / 2)..]
  {
    var len := |data|;
    var h := n / 2;
    var half := n as real / 2.0;
    if n % 2 == 0 {
      assert half == h as real;
      assert len as real - half == (len - h) as real;
    } else {
      assert half == h as real + 0.5;
      assert len as real - half == (len - h - 1) as real + 0.5;
    }
    assert Truncate(half) == h;
    assert Truncate(len as real - half) == len - (n - h);
  }

  /**
   * The split `_getOffsetData` evidently intends: the first `n - n / 2` items
   * (rounded up) followed by the last `n / 2` (rounded down), so that for an
   * odd `n` the extra slot goes to the head, next to the items after index 0.
   * It agrees with `OffsetData` for an even `n`; for an odd `n` the two differ
   * in the middle slot `n / 2` alone, which holds `data[n / 2]` here.
   */
  function CorrectedOffsetData<T>(data: seq<T>, n: int): (r: seq<T>)
    ensures 0 <= n <= |data| ==> |r| == n && r == data[..n - n / 2] + data[|data| - n / 2..]
    ensures n % 2 == 0 ==> r == OffsetData(data, n)
    ensures 0 <= n <= |data| && n % 2 == 1 ==> r == OffsetData(data, n)[n / 2 := data[n / 2]]
  {
    if 0 <= n <= |data| && n % 2 == 1 then
      var r := data[..n - n / 2] + data[|data| - n / 2..];
      OddSplitsDiffer(data, n, r);
      r
    else
      OffsetData(data, n)
  }

  /** For an odd `n`, rounding the head up instead of down moves one item into the middle slot. */
  lemma OddSplitsDiffer<T>(data: seq<T>, n: int, r: seq<T>)
    requires 0 <= n <= |data| && n % 2 == 1
    requires r == data[..n - n / 2] + data[|data| - n / 2..]
    ensures r == OffsetData(data, n)[n / 2 := data[n / 2]]
  {
    var w := OffsetData(data, n);
    var h := n / 2;
    assert |r| == |w[h := data[h]]| == n;
    forall k | 0 <= k < n
      ensures r[k] == w[h := data[h]][k]
    {
      if k > h {
        assert r[k] == data[|data| - h + (k - h - 1)];
        assert w[k] == data[|data| - (n - h) + (k - h)];
      }
    }
  }

  /**
   * `_getDisplayData`: a copy of the display window in which slot
   * `insertionIndexLeft` receives `data[dataIndexLeft]` and then slot
   * `insertionIndexRight` receives `data[dataIndexRight]`.
   */
  function DisplayData<T>(data: seq<T>, displayData: seq<T>,
                          dataIndexLeft: int, dataIndexRight: int,
                          insertionIndexLeft: int, insertionIndexRight: int): (r: seq<T>)
    requires 0 <= dataIndexLeft < |data| && 0 <= dataIndexRight < |data|
    requires 0 <= insertionIndexLeft < |displayData| && 0 <= insertionIndexRight < |displayData|
    ensures |r| == |displayData|
    ensures r[insertionIndexRight] == data[dataIndexRight]
    ensures insertionIndexLeft != insertionIndexRight ==> r[insertionIndexLeft] == data[dataIndexLeft]
    ensures forall k :: 0 <= k < |r| && k != insertionIndexLeft && k != insertionIndexRight ==>
      r[k] == displayData[k]
  {
    displayData[insertionIndexLeft := data[dataIndexLeft]][insertionIndexRight := data[dataIndexRight]]
  }

  /**
   * `_getInsertionIndex`: both cursors of a pair take one wrap-once step in
   * the same direction.  For cursors in `[0, length)` the results stay in
   * range, each moves by exactly ±1 around the ring, and the circular gap
   * from the left cursor to the right one is unchanged.
   */
  function ShiftCursors(left: int, right: int, length: int, dir: Direction): (r: (int, int))
    ensures 0 <= left < length && 0 <= right < length ==>
      && 0 <= r.0 < length && 0 <= r.1 < length
      && r.0 == Neighbour(left, if dir == Left then 1 else -1, length)
      && r.1 == Neighbour(right, if dir == Left then 1 else -1, length)
      && (r.1 - r.0) % length == (right - left) % length
  {
    var l, rr := Step(left, length, dir), Step(right, length, dir);
    if 0 <= left < length && 0 <= right < length then
      GapPreserved(left, right, length, dir);
      (l, rr)
    else
      (l, rr)
  }

  lemma GapPreserved(left: int, right: int, length: int, dir: Direction)
    requires 0 <= left < length && 0 <= right < length
    ensures (Step(right, length, dir) - Step(left, length, dir)) % length == (right - left) % length
  {
    var l, r := Step(left, length, dir), Step(right, length, dir);
    var s := if dir == Left then 1 else -1;
    ModNear(left + s, length);
    ModNear(right + s, length);
    // A wrap moves a cursor by `-s * length` on top of its step `s`.
    var q := (if r != right + s then -s else 0) - (if l != left + s then -s else 0);
    assert (r - l) == (right - left) + q * length;
    ModAddMultiple(right - left, q, length);
  }
}

=== FILE: coherence.dfy ===
/**
 * The invariant that ties the ring buffer of `CircleList` to the selected
 * data index: the two data cursors sit `padding + 1` places either side of
 * `dataIndex`, the two insertion cursors bound a run of `2 * padding + 3`
 * slots, each slot of that run holds the data item at the matching distance
 * from `dataIndex`, and the rendered window is computed from `dataIndex` or
 * from one of its two neighbours.
 */
module Coherence {
  import opened RingMath
  import opened Geometry
  import opened Binding
  import opened Controller

  /** The ring slot, counted back from `insertionRight`, that shows the item `j` places from `index`. */
  function WindowSlot(insertionRight: int, j: int, n: int, padding: int): (r: int)
    requires n >= 1
    ensures 0 <= r < n
  {
    Neighbour(insertionRight, j - (padding + 1), n)
  }

  /** The four cursors sit where the constructor put them relative to `index`. */
  ghost predicate CursorsAligned(n: int, padding: int, length: int, index: int,
                                 dataLeft: int, dataRight: int, insertionLeft: int, insertionRight: int)
    requires n >= 1 && length >= 1
  {
    && dataLeft == Neighbour(index, -(padding + 1), length)
    && dataRight == Neighbour(index, padding + 1, length)
    && insertionLeft == Neighbour(insertionRight, -(2 * padding + 2), n)
  }

  /** Each slot of the window holds the data item at the matching distance from `index`. */
  ghost predicate WindowHolds<T>(data: seq<T>, displayData: seq<T>, index: int, insertionRight: int, padding: int)
    requires |displayData| >= 1 && |data| >= 1
  {
    forall j :: -(padding + 1) <= j <= padding + 1 ==>
      displayData[WindowSlot(insertionRight, j, |displayData|, padding)] == data[Neighbour(index, j, |data|)]
  }

  /** The rendered window is that of `dataIndex` or of one of its neighbours, under `rule`. */
  ghost predicate WindowNear(rule: BoundsRule, bounds: seq<int>, index: int, length: int, padding: int)
    requires length >= 1
  {
    || bounds == VisibleWindow(rule, index, length, padding)
    || bounds == VisibleWindow(rule, Neighbour(index, 1, length), length, padding)
    || bounds == VisibleWindow(rule, Neighbour(index, -1, length), length, padding)
  }

  /** The invariant, for a component whose rendered window follows `rule`. */
  ghost predicate Coherent<T>(cfg: Config, rule: BoundsRule, s: Carousel<T>) {
    var n, p, L := cfg.elementCount, cfg.visibilityPadding, |s.data|;
    && Valid(cfg, s)
    && 0 <= p && 2 * p + 3 <= n <= L
    && (forall k :: 0 <= k < L ==> s.data[k].dataIndex == k)
    && CursorsAligned(n, p, L, s.dataIndex, s.dataIndexLeft, s.dataIndexRight,
                      s.insertionIndexLeft, s.insertionIndexRight)
    && WindowHolds(s.data, s.displayData, s.dataIndex, s.insertionIndexRight, p)
    && WindowNear(rule, s.visibleDataBounds, s.dataIndex, L, p)
  }

  // ---------------------------------------------------------------------------
  // Construction
  // ---------------------------------------------------------------------------

  /**
   * The constructor yields a coherent state when the ring has room for the
   * window with a slot to spare and the data fills the ring.
   */
  lemma {:induction false} InitCoherent<T>(cfg: Config, rule: BoundsRule, data: seq<T>)
    requires 0 <= cfg.visibilityPadding && 2 * cfg.visibilityPadding + 4 <= cfg.elementCount <= |data|
    ensures Coherent(cfg, rule, Init(cfg, rule, data))
  {
    var s := Init(cfg, rule, data);
    var n, p, L := cfg.elementCount, cfg.visibilityPadding, |data|;
    InitCursors(n, p, L);
    InitWindow(cfg, rule, data);
    NeighbourZero(0, L);
  }

  /** The constructor's cursor values are aligned around index 0. */
  lemma InitCursors(n: int, padding: int, length: int)
    requires 0 <= padding && 2 * padding + 3 <= n <= length
    ensures CursorsAligned(n, padding, length, 0, length - padding - 1, padding + 1, n - padding - 1, padding + 1)
  {
    ModNear(-(padding + 1), length);
    ModNear(padding + 1, length);
    ModNear(-(padding + 1), n);
  }

  /** The constructor's window holds the items around index 0. */
  lemma {:induction false} InitWindow<T>(cfg: Config, rule: BoundsRule, data: seq<T>)
    requires 0 <= cfg.visibilityPadding && 2 * cfg.visibilityPadding + 4 <= cfg.elementCount <= |data|
    ensures var s := Init(cfg, rule, data);
            && |s.displayData| == cfg.elementCount && |s.data| == |data|
            && WindowHolds(s.data, s.displayData, 0, cfg.visibilityPadding + 1, cfg.visibilityPadding)
  {
    var s := Init(cfg, rule, data);
    var n, p := cfg.elementCount, cfg.visibilityPadding;
    HeadTailWindow(s.data, s.displayData, n, n / 2, p);
  }

  /**
   * A window made of the first `h` items and the last `n - h` items holds,
   * in the `padding + 1` slots either side of slot `padding + 1` counted
   * back, the items around index 0, provided the head reaches slot
   * `padding + 1` and the tail has `padding + 1` items.
   */
  lemma {:induction false} HeadTailWindow<T>(data: seq<T>, window: seq<T>, n: int, h: int, padding: int)
    requires 0 <= padding && padding + 2 <= h && padding + 1 <= n - h && n <= |data|
    requires window == data[..h] + data[|data| - (n - h)..]
    ensures |window| == n
    ensures WindowHolds(data, window, 0, padding + 1, padding)
  {
    forall j | -(padding + 1) <= j <= padding + 1
      ensures window[WindowSlot(padding + 1, j, n, padding)] == data[Neighbour(0, j, |data|)]
    {
      HeadTailSlot(data, window, n, h, padding, j);
    }
  }

  lemma HeadTailSlot<T>(data: seq<T>, window: seq<T>, n: int, h: int, padding: int, j: int)
    requires 0 <= padding && padding + 2 <= h && padding + 1 <= n - h && n <= |data|
    requires window == data[..h] + data[|data| - (n - h)..]
    requires -(padding + 1) <= j <= padding + 1
    ensures window[WindowSlot(padding + 1, j, n, padding)] == data[Neighbour(0, j, |data|)]
  {
    var L := |data|;
    ModNear(j, n);
    ModNear(j, L);
    if j < 0 {
      assert WindowSlot(padding + 1, j, n, padding) == n + j;
      assert window[n + j] == data[L - (n - h) + (n + j - h)];
    } else {
      assert WindowSlot(padding + 1, j, n, padding) == j;
    }
  }

  /**
   * With the split rounded up at the head, the constructor is coherent for
   * every ring that can hold the window, `2 * padding + 3` slots included.
   */
  lemma {:induction false} CorrectedInitCoherent<T>(cfg: Config, rule: BoundsRule, data: seq<T>)
    requires 0 <= cfg.visibilityPadding && 2 * cfg.visibilityPadding + 3 <= cfg.elementCount <= |data|
    ensures Coherent(cfg, rule, InitCorrected(cfg, rule, data))
  {
    var s := InitCorrected(cfg, rule, data);
    var n, p, L := cfg.elementCount, cfg.visibilityPadding, |data|;
    InitCursors(n, p, L);
    CorrectedInitWindow(cfg, rule, data);
    NeighbourZero(0, L);
  }

  /** The corrected constructor's window holds the items around index 0. */
  lemma {:induction false} CorrectedInitWindow<T>(cfg: Config, rule: BoundsRule, data: seq<T>)
    requires 0 <= cfg.visibilityPadding && 2 * cfg.visibilityPadding + 3 <= cfg.elementCount <= |data|
    ensures var s := InitCorrected(cfg, rule, data);
            && |s.displayData| == cfg.elementCount && |s.data| == |data|
            && WindowHolds(s.data, s.displayData, 0, cfg.visibilityPadding + 1, cfg.visibilityPadding)
  {
    var s := InitCorrected(cfg, rule, data);
    var n, p := cfg.elementCount, cfg.visibilityPadding;
    assert s.displayData == CorrectedOffsetData(s.data, n);
    HeadTailWindow(s.data, s.displayData, n, n - n / 2, p);
  }

  /**
   * With `2 * padding + 3` slots and more items than slots, the constructor
   * as written is not coherent: its split puts `data[length - padding - 2]`
   * in slot `padding + 1`, where `data[padding + 1]` belongs.  A leftward drag
   * that changes the closest slot rebinds slots `padding + 2` and
   * `padding + 3` and leaves that slot alone, so item `padding + 1`, which the
   * rendered window holds, is then bound to no slot at all.
   */
  lemma {:induction false} OddSplitLosesItem<T>(cfg: Config, rule: BoundsRule, data: seq<T>, dx: real, thetaOffset: real)
    requires 0 <= cfg.visibilityPadding && cfg.elementCount == 2 * cfg.visibilityPadding + 3 < |data|
    requires dx < 0.0 && MoveRotationIndex(cfg, Init(cfg, rule, data), dx, thetaOffset) != 0
    ensures !Coherent(cfg, rule, Init(cfg, rule, data))
    ensures var r := Move(cfg, rule, Init(cfg, rule, data), dx, thetaOffset);
            && r.dataIndex == 1
            && cfg.visibilityPadding + 1 in r.visibleDataBounds
            && forall k :: 0 <= k < |r.displayData| ==> r.displayData[k].dataIndex != cfg.visibilityPadding + 1
  {
    OddSplitMisplaces(cfg, rule, data);
    OddSplitDragWindow(cfg, rule, data, dx, thetaOffset);
    OddSplitDragSlots(cfg, rule, data, dx, thetaOffset);
  }

  /** The leftward rebind selects index 1 and renders the window of index 0. */
  lemma OddSplitDragWindow<T>(cfg: Config, rule: BoundsRule, data: seq<T>, dx: real, thetaOffset: real)
    requires 0 <= cfg.visibilityPadding && cfg.elementCount == 2 * cfg.visibilityPadding + 3 < |data|
    requires dx < 0.0 && MoveRotationIndex(cfg, Init(cfg, rule, data), dx, thetaOffset) != 0
    ensures var r := Move(cfg, rule, Init(cfg, rule, data), dx, thetaOffset);
            && r.dataIndex == 1
            && cfg.visibilityPadding + 1 in r.visibleDataBounds
  {
    var p, L := cfg.visibilityPadding, |data|;
    ModNear(1, L);
    ZeroWindowHoldsNext(rule, L, p);
  }

  /** The leftward rebind leaves item `padding + 1` in no slot. */
  lemma OddSplitDragSlots<T>(cfg: Config, rule: BoundsRule, data: seq<T>, dx: real, thetaOffset: real)
    requires 0 <= cfg.visibilityPadding && cfg.elementCount == 2 * cfg.visibilityPadding + 3 < |data|
    requires dx < 0.0 && MoveRotationIndex(cfg, Init(cfg, rule, data), dx, thetaOffset) != 0
    ensures var r := Move(cfg, rule, Init(cfg, rule, data), dx, thetaOffset);
            forall k :: 0 <= k < |r.displayData| ==> r.displayData[k].dataIndex != cfg.visibilityPadding + 1
  {
    var s := Init(cfg, rule, data);
    OddWindowTags(s.data, s.displayData, cfg.elementCount, cfg.visibilityPadding);
    OddWindowMisses(s.data, s.displayData, cfg.elementCount, cfg.visibilityPadding, s.dataIndexLeft, s.dataIndexRight,
                    s.insertionIndexLeft, s.insertionIndexRight);
  }

  /** The odd split leaves the wrong item in slot `padding + 1`. */
  lemma OddSplitMisplaces<T>(cfg: Config, rule: BoundsRule, data: seq<T>)
    requires 0 <= cfg.visibilityPadding && cfg.elementCount == 2 * cfg.visibilityPadding + 3 < |data|
    ensures !Coherent(cfg, rule, Init(cfg, rule, data))
  {
    var s := Init(cfg, rule, data);
    var n, p, L := cfg.elementCount, cfg.visibilityPadding, |data|;
    assert s.displayData[p + 1] == s.data[L - p - 2];
    ModNear(p + 1, n);
    ModNear(p + 1, L);
    assert WindowSlot(p + 1, p + 1, n, p) == p + 1;
    assert s.displayData[WindowSlot(p + 1, p + 1, n, p)] != s.data[Neighbour(0, p + 1, L)];
  }

  /** The rendered window of index 0 reaches `padding + 1` places ahead, under either rule. */
  lemma ZeroWindowHoldsNext(rule: BoundsRule, length: int, padding: int)
    requires 0 <= padding && 2 * padding + 3 < length
    ensures padding + 1 in VisibleWindow(rule, 0, length, padding)
  {
    ModNear(padding + 1, length);
    assert Neighbour(0, padding + 1, length) == padding + 1;
    match rule
    case AsWrittenBounds => VisibleWindowAsWrittenCovers(0, length, padding);
    case CorrectedBounds => VisibleWindowCovers(0, length, padding);
  }

  /**
   * The odd split's window after the two rebinds of one leftward step:
   * slot `padding + 2` takes item `padding + 2`, the next slot item
   * `length - padding`, and no slot holds item `padding + 1`.
   */
  lemma {:induction false} OddWindowMisses<T>(data: seq<Tagged<T>>, window: seq<Tagged<T>>, n: int, p: int,
                                             dataLeft: int, dataRight: int, insLeft: int, insRight: int)
    requires 0 <= p && n == 2 * p + 3 < |data|
    requires forall i :: 0 <= i < |data| ==> data[i].dataIndex == i
    requires |window| == n
    requires forall k :: 0 <= k < n ==> window[k].dataIndex == if k <= p then k else |data| - n + k
    requires dataLeft == |data| - p - 1 && dataRight == p + 1 && insLeft == p + 2 && insRight == p + 1
    ensures var w := DisplayData(data, window, Neighbour(dataLeft, 1, |data|), Neighbour(dataRight, 1, |data|),
                                 Neighbour(insLeft, 1, n), Neighbour(insRight, 1, n));
            forall k :: 0 <= k < |w| ==> w[k].dataIndex != p + 1
  {
    var L := |data|;
    var left, right := Neighbour(dataLeft, 1, L), Neighbour(dataRight, 1, L);
    var insL, insR := Neighbour(insLeft, 1, n), Neighbour(insRight, 1, n);
    assert left == (if p == 0 then 0 else L - p) by { ModNear(L - p, L); }
    assert insL == (if p == 0 then 0 else p + 3) by { ModNear(p + 3, n); }
    assert right == p + 2 && insR == p + 2 by { ModNear(p + 2, L); ModNear(p + 2, n); }
    var w := DisplayData(data, window, left, right, insL, insR);
    forall k | 0 <= k < n
      ensures w[k].dataIndex != p + 1
    {
      if k == insR {
        assert w[k] == data[p + 2];
      } else if k == insL {
        assert w[k] == data[left];
      } else {
        assert w[k] == window[k];
      }
    }
  }

  /** Slot `k` of the odd split holds item `k` up to slot `padding`, and item `length - n + k` after it. */
  lemma OddWindowTags<T>(data: seq<Tagged<T>>, window: seq<Tagged<T>>, n: int, p: int)
    requires 0 <= p && n == 2 * p + 3 < |data|
    requires forall i :: 0 <= i < |data| ==> data[i].dataIndex == i
    requires window == OffsetData(data, n)
    ensures |window| == n
    ensures forall k :: 0 <= k < n ==> window[k].dataIndex == if k <= p then k else |data| - n + k
  {
    assert window == data[..p + 1] + data[|data| - p - 2..];
    forall k | 0 <= k < n
      ensures window[k].dataIndex == if k <= p then k else |data| - n + k
    {
      if k > p {
        assert window[k] == data[|data| - n + k];
      }
    }
  }

  // ---------------------------------------------------------------------------
  // Sliding the ring buffer
  // ---------------------------------------------------------------------------

  /** Stepping the index and all four cursors by the same `k` keeps them aligned. */
  lemma {:induction false} CursorsShift(n: int, padding: int, length: int, index: int,
                                        dataLeft: int, dataRight: int, insertionLeft: int, insertionRight: int, k: int)
    requires n >= 1 && length >= 1
    requires CursorsAligned(n, padding, length, index, dataLeft, dataRight, insertionLeft, insertionRight)
    ensures CursorsAligned(n, padding, length, Neighbour(index, k, length),
                           Neighbour(dataLeft, k, length), Neighbour(dataRight, k, length),
                           Neighbour(insertionLeft, k, n), Neighbour(insertionRight, k, n))
  {
    NeighbourAdd(index, -(padding + 1), k, length);
    NeighbourAdd(index, k, -(padding + 1), length);
    NeighbourAdd(index, padding + 1, k, length);
    NeighbourAdd(index, k, padding + 1, length);
    NeighbourAdd(insertionRight, -(2 * padding + 2), k, n);
    NeighbourAdd(insertionRight, k, -(2 * padding + 2), n);
  }

  /**
   * Sliding the window by `k = ±1` and rebinding its two end slots to the
   * items now `padding + 1` places away keeps every slot of the window right.
   */
  lemma {:induction false} WindowShift<T>(data: seq<T>, displayData: seq<T>, index: int, insertionRight: int,
                                          padding: int, k: int)
    requires |displayData| >= 2 * padding + 3 && |data| >= 1 && padding >= 0
    requires 0 <= index < |data| && 0 <= insertionRight < |displayData|
    requires k == 1 || k == -1
    requires WindowHolds(data, displayData, index, insertionRight, padding)
    ensures var n, L := |displayData|, |data|;
      var index' := Neighbour(index, k, L);
      var right' := Neighbour(insertionRight, k, n);
      var shifted := DisplayData(data, displayData,
                                 Neighbour(index', -(padding + 1), L), Neighbour(index', padding + 1, L),
                                 Neighbour(right', -(2 * padding + 2), n), right');
      WindowHolds(data, shifted, index', right', padding)
  {
    var n, L := |displayData|, |data|;
    var index' := Neighbour(index, k, L);
    var right' := Neighbour(insertionRight, k, n);
    var shifted := DisplayData(data, displayData,
                               Neighbour(index', -(padding + 1), L), Neighbour(index', padding + 1, L),
                               Neighbour(right', -(2 * padding + 2), n), right');
    forall j | -(padding + 1) <= j <= padding + 1
      ensures shifted[WindowSlot(right', j, n, padding)] == data[Neighbour(index', j, L)]
    {
      WindowShiftSlot(data, displayData, index, insertionRight, padding, k, j);
    }
  }

  lemma WindowShiftSlot<T>(data: seq<T>, displayData: seq<T>, index: int, insertionRight: int,
                           padding: int, k: int, j: int)
    requires |displayData| >= 2 * padding + 3 && |data| >= 1 && padding >= 0
    requires 0 <= index < |data| && 0 <= insertionRight < |displayData|
    requires k == 1 || k == -1
    requires WindowHolds(data, displayData, index, insertionRight, padding)
    requires -(padding + 1) <= j <= padding + 1
    ensures var n, L := |displayData|, |data|;
      var index' := Neighbour(index, k, L);
      var right' := Neighbour(insertionRight, k, n);
      var shifted := DisplayData(data, displayData,
                                 Neighbour(index', -(padding + 1), L), Neighbour(index', padding + 1, L),
                                 Neighbour(right', -(2 * padding + 2), n), right');
      shifted[WindowSlot(right', j, n, padding)] == data[Neighbour(index', j, L)]
  {
    var n, L, p := |displayData|, |data|, padding;
    var index' := Neighbour(index, k, L);
    var right' := Neighbour(insertionRight, k, n);
    var left' := Neighbour(right', -(2 * p + 2), n);
    NeighbourAdd(insertionRight, k, j - (p + 1), n);
    NeighbourAdd(insertionRight, k, -(2 * p + 2), n);
    NeighbourDistinct(insertionRight, k - (2 * p + 2), k, n);
    if j == p + 1 {
      NeighbourZero(right', n);
    } else if j == -(p + 1) {
    } else {
      NeighbourAdd(index, k, j, L);
      assert WindowSlot(right', j, n, p) == WindowSlot(insertionRight, j + k, n, p);
      NeighbourDistinct(insertionRight, k + j - (p + 1), k, n);
      NeighbourDistinct(insertionRight, k + j - (p + 1), k - (2 * p + 2), n);
    }
  }

  /**
   * A state whose data index and four cursors all moved `k = ±1` places from
   * a coherent state, whose window was rebound at the new cursors and whose
   * rendered window is near the new index, is coherent.
   */
  lemma {:induction false} ShiftCoherent<T>(cfg: Config, rule: BoundsRule, s: Carousel<T>, r: Carousel<T>, k: int)
    requires Coherent(cfg, rule, s) && Valid(cfg, r) && r.data == s.data
    requires k == 1 || k == -1
    requires var n, L := cfg.elementCount, |s.data|;
             && r.dataIndex == Neighbour(s.dataIndex, k, L)
             && r.dataIndexLeft == Neighbour(s.dataIndexLeft, k, L)
             && r.dataIndexRight == Neighbour(s.dataIndexRight, k, L)
             && r.insertionIndexLeft == Neighbour(s.insertionIndexLeft, k, n)
             && r.insertionIndexRight == Neighbour(s.insertionIndexRight, k, n)
    requires r.displayData == DisplayData(s.data, s.displayData, r.dataIndexLeft, r.dataIndexRight,
                                          r.insertionIndexLeft, r.insertionIndexRight)
    requires WindowNear(rule, r.visibleDataBounds, r.dataIndex, |r.data|, cfg.visibilityPadding)
    ensures Coherent(cfg, rule, r)
  {
    var n, p, L := cfg.elementCount, cfg.visibilityPadding, |s.data|;
    CursorsShift(n, p, L, s.dataIndex, s.dataIndexLeft, s.dataIndexRight,
                 s.insertionIndexLeft, s.insertionIndexRight, k);
    WindowShift(s.data, s.displayData, s.dataIndex, s.insertionIndexRight, p, k);
  }

  /**
   * Sliding the ring buffer while the data index takes the same step keeps
   * the cursors and the slot contents coherent.
   */
  lemma {:induction false} SlideCoherent<T>(cfg: Config, rule: BoundsRule, s: Carousel<T>, dir: Direction, r: Carousel<T>)
    requires Coherent(cfg, rule, s)
    requires r.data == s.data && r.dataIndex == Step(s.dataIndex, |s.data|, dir)
    requires var slid := Slide(cfg, s, dir);
             && r.displayData == slid.displayData
             && r.dataIndexLeft == slid.dataIndexLeft && r.dataIndexRight == slid.dataIndexRight
             && r.insertionIndexLeft == slid.insertionIndexLeft && r.insertionIndexRight == slid.insertionIndexRight
    requires WindowNear(rule, r.visibleDataBounds, r.dataIndex, |r.data|, cfg.visibilityPadding)
    ensures Coherent(cfg, rule, r)
  {
    var k := if dir == Left then 1 else -1;
    StepIsNeighbour(s.dataIndex, |s.data|, dir);
    ShiftCoherent(cfg, rule, s, r, k);
  }

  // ---------------------------------------------------------------------------
  // The rendered window
  // ---------------------------------------------------------------------------

  /**
   * In a coherent state with the corrected window, every data index within
   * `padding` places of the selected one is in the rendered window, although
   * the window may lag one step behind a drag.
   */
  lemma {:induction false} CoherentWindowCovers<T>(cfg: Config, s: Carousel<T>, j: int)
    requires Coherent(cfg, CorrectedBounds, s)
    requires -cfg.visibilityPadding <= j <= cfg.visibilityPadding
    ensures Neighbour(s.dataIndex, j, |s.data|) in s.visibleDataBounds
  {
    WindowNearCovers(s.visibleDataBounds, s.dataIndex, |s.data|, cfg.visibilityPadding, j);
  }

  lemma {:induction false} WindowNearCovers(bounds: seq<int>, index: int, length: int, padding: int, j: int)
    requires 0 <= padding && 2 * padding + 3 <= length && 0 <= index < length
    requires WindowNear(CorrectedBounds, bounds, index, length, padding)
    requires -padding <= j <= padding
    ensures Neighbour(index, j, length) in bounds
  {
    NeighbourZero(index, length);
    if bounds == VisibleWindow(CorrectedBounds, Neighbour(index, 0, length), length, padding) {
      NeighbourWindowCovers(index, length, padding, 0, j);
    } else if bounds == VisibleWindow(CorrectedBounds, Neighbour(index, 1, length), length, padding) {
      NeighbourWindowCovers(index, length, padding, 1, j);
    } else {
      NeighbourWindowCovers(index, length, padding, -1, j);
    }
  }

  /** The corrected window of the neighbour `m` places away holds every index within `padding` places. */
  lemma NeighbourWindowCovers(index: int, length: int, padding: int, m: int, j: int)
    requires 0 <= padding && 2 * padding + 3 <= length && 0 <= index < length
    requires -1 <= m <= 1 && -padding <= j <= padding
    ensures Neighbour(index, j, length) in VisibleWindow(CorrectedBounds, Neighbour(index, m, length), length, padding)
  {
    NeighbourAdd(index, m, j - m, length);
    CorrectedHasNeighbour(Neighbour(index, m, length), length, padding, j - m);
  }

  // ---------------------------------------------------------------------------
  // Transitions
  // ---------------------------------------------------------------------------

  /** Coherence only reads the data, the window, the cursors and the rendered window. */
  lemma CoherentIgnoresRotation<T>(cfg: Config, rule: BoundsRule, s: Carousel<T>, r: Carousel<T>)
    requires Coherent(cfg, rule, s)
    requires r.data == s.data && r.displayData == s.displayData && r.dataIndex == s.dataIndex
    requires r.dataIndexLeft == s.dataIndexLeft && r.dataIndexRight == s.dataIndexRight
    requires r.insertionIndexLeft == s.insertionIndexLeft && r.insertionIndexRight == s.insertionIndexRight
    requires r.visibleDataBounds == s.visibleDataBounds
    ensures Coherent(cfg, rule, r)
  {
  }

  /** A drag move keeps the state coherent, under either bounds rule. */
  lemma {:induction false} MoveCoherent<T>(cfg: Config, rule: BoundsRule, s: Carousel<T>, dx: real, thetaOffset: real)
    requires Coherent(cfg, rule, s)
    ensures Coherent(cfg, rule, Move(cfg, rule, s, dx, thetaOffset))
  {
    if dx != 0.0 && MoveRotationIndex(cfg, s, dx, thetaOffset) != s.rotationIndex {
      MoveStepCoherent(cfg, rule, s, dx, thetaOffset);
    } else {
      CoherentIgnoresRotation(cfg, rule, s, Move(cfg, rule, s, dx, thetaOffset));
    }
  }

  /** A drag move that changes the closest slot slides the ring buffer in step with the data index. */
  lemma {:induction false} MoveStepCoherent<T>(cfg: Config, rule: BoundsRule, s: Carousel<T>, dx: real, thetaOffset: real)
    requires Coherent(cfg, rule, s)
    requires dx != 0.0 && MoveRotationIndex(cfg, s, dx, thetaOffset) != s.rotationIndex
    ensures Coherent(cfg, rule, Move(cfg, rule, s, dx, thetaOffset))
  {
    var r := Move(cfg, rule, s, dx, thetaOffset);
    var L := |s.data|;
    var k := if dx < 0.0 then 1 else -1;
    NeighbourAdd(s.dataIndex, k, -k, L);
    NeighbourZero(s.dataIndex, L);
    assert WindowNear(rule, r.visibleDataBounds, r.dataIndex, L, cfg.visibilityPadding);
    ShiftCoherent(cfg, rule, s, r, k);
  }

  /**
   * With the window as written, a drag can leave a neighbour of the selected
   * item out of the rendered window: with 40 items, padding 3 and data index
   * 36, a leftward move that changes the closest slot selects 37 but computes
   * the window from 36, which is `32 .. 40` and lacks index 0, three places
   * ahead of 37.  The same move with the corrected window holds 0.
   */
  lemma {:induction false} DragMissesSeamItem<T>(cfg: Config, s: Carousel<T>, dx: real, thetaOffset: real)
    requires Coherent(cfg, AsWrittenBounds, s)
    requires cfg.visibilityPadding == 3 && |s.data| == 40 && s.dataIndex == 36
    requires dx < 0.0 && MoveRotationIndex(cfg, s, dx, thetaOffset) != s.rotationIndex
    ensures var r := Move(cfg, AsWrittenBounds, s, dx, thetaOffset);
            && Coherent(cfg, AsWrittenBounds, r)
            && r.dataIndex == 37 && Neighbour(37, 3, 40) == 0
            && 0 !in r.visibleDataBounds
    ensures 0 in Move(cfg, CorrectedBounds, s, dx, thetaOffset).visibleDataBounds
  {
    MoveCoherent(cfg, AsWrittenBounds, s, dx, thetaOffset);
    VisibleWindowSeamCounterexample();
  }

  /** A drag release only snaps the rotation, so it keeps the state coherent. */
  lemma ReleaseCoherent<T>(cfg: Config, rule: BoundsRule, s: Carousel<T>, dx: real)
    requires Coherent(cfg, rule, s)
    ensures Coherent(cfg, rule, Release(cfg, s, dx))
  {
    CoherentIgnoresRotation(cfg, rule, s, Release(cfg, s, dx));
  }

  /** One scroll step that rebinds the ring buffer keeps the state coherent. */
  lemma {:induction false} ScrollStepCoherent<T>(cfg: Config, rule: BoundsRule, s: Carousel<T>, dir: Direction, last: bool)
    requires Coherent(cfg, rule, s)
    ensures Coherent(cfg, rule, ScrollStep(cfg, rule, s, dir, last, EveryStep))
  {
    var r := ScrollStep(cfg, rule, s, dir, last, EveryStep);
    StepIsNeighbour(s.dataIndex, |s.data|, dir);
    assert r.visibleDataBounds == VisibleWindow(rule, r.dataIndex, |s.data|, cfg.visibilityPadding);
    SlideCoherent(cfg, rule, s, dir, r);
  }

  /** The corrected scroll keeps the state coherent after any number of steps. */
  lemma {:induction false} ScrollStepsCoherent<T>(cfg: Config, rule: BoundsRule, s: Carousel<T>, dir: Direction,
                                                  stepCount: int, count: int)
    requires Coherent(cfg, rule, s)
    ensures Coherent(cfg, rule, ScrollSteps(cfg, rule, s, dir, stepCount, count, EveryStep))
    decreases stepCount - count
  {
    var newCount := count + 1;
    ScrollStepCoherent(cfg, rule, s, dir, !(newCount < stepCount));
    if newCount < stepCount {
      ScrollStepsCoherent(cfg, rule, ScrollStep(cfg, rule, s, dir, false, EveryStep), dir, stepCount, newCount);
    }
  }

  /** The corrected `scrollToIndex` keeps the state coherent, under either bounds rule. */
  lemma {:induction false} ScrollToIndexCoherent<T>(cfg: Config, rule: BoundsRule, s: Carousel<T>, index: int)
    requires Coherent(cfg, rule, s)
    ensures Coherent(cfg, rule, ScrollToIndex(cfg, rule, s, index))
  {
    if index != s.dataIndex {
      var plan := ScrollPlan(s.dataIndex, index, |s.data|);
      var begun := s.(log := s.log + [ScrollBegin(s.dataIndex)]);
      assert Coherent(cfg, rule, begun);
      ScrollStepsCoherent(cfg, rule, begun, plan.direction, plan.stepCount, 0);
    }
  }
}

=== FILE: controller.dfy ===
/**
 * The rotation controller of `CircleList` (src/CircleList.js) as pure state
 * transitions: construction, a drag move, a drag release, and the step
 * sequence of `scrollToIndex`.  Every `setState` is an immediate assignment,
 * every animation completes at once, and the drag rate `thetaOffset` (an
 * `acos` of the cursor position) is an input.  The `onScrollBegin`,
 * `onScroll` and `onScrollEnd` notifications are recorded in a log.
 */
module Controller {
  import opened Optional
  import opened RingMath
  import opened Geometry
  import opened Binding

  /** The props the ring bookkeeping reads; the others only feed transforms. */
  datatype Config = Config(elementCount: int, visibilityPadding: int)

  /** A notification passed to `onScrollBegin`, `onScroll` or `onScrollEnd`. */
  datatype Event = ScrollBegin(index: int) | Scroll(index: int) | ScrollEnd(index: int)

  /**
   * The component's bookkeeping: the tagged `data`, the `displayData` bound
   * to the ring slots, the selected `dataIndex`, the data and insertion
   * cursors at the two edges of the window, the rotation, the rendered window
   * `visibleDataBounds`, and the notifications emitted so far.
   */
  datatype Carousel<T> = Carousel(
    data: seq<Tagged<T>>,
    displayData: seq<Tagged<T>>,
    dataIndex: int,
    dataIndexLeft: int,
    dataIndexRight: int,
    insertionIndexLeft: int,
    insertionIndexRight: int,
    rotationOffset: real,
    selectedIndex: int,
    rotationIndex: int,
    scrolling: bool,
    visibleDataBounds: seq<int>,
    log: seq<Event>)

  /**
   * The states the transitions are defined on: at least one slot, one ring
   * slot bound per slot, and the selected index and all four cursors in range.
   */
  predicate Valid<T>(cfg: Config, s: Carousel<T>) {
    && cfg.elementCount >= 1
    && |s.displayData| == cfg.elementCount
    && 0 <= s.dataIndex < |s.data|
    && 0 <= s.dataIndexLeft < |s.data| && 0 <= s.dataIndexRight < |s.data|
    && 0 <= s.insertionIndexLeft < cfg.elementCount
    && 0 <= s.insertionIndexRight < cfg.elementCount
  }

  /**
   * The constructor: the tagged data, a slot window taken from its head and
   * tail, index 0 selected, the data cursors `padding + 1` places either side
   * of it, the insertion cursors bounding the first `padding + 2` slots and
   * the last `padding + 1`, no rotation, and the rendered window of index 0.
   * The state is valid exactly when the ring and the data both have room for
   * the selected slot and the `padding + 1` slots after it.
   */
  function Init<T>(cfg: Config, rule: BoundsRule, data: seq<T>): (r: Carousel<T>)
    ensures UntagAll(r.data) == data
    ensures forall i :: 0 <= i < |r.data| ==> r.data[i].dataIndex == i
    ensures 0 <= cfg.elementCount <= |data| ==>
      r.displayData == r.data[..cfg.elementCount / 2] + r.data[|data| - (cfg.elementCount - cfg.elementCount / 2)..]
    ensures && r.dataIndex == 0 && r.selectedIndex == 0 && r.rotationIndex == 0
            && r.rotationOffset == 0.0 && !r.scrolling && r.log == []
    ensures && r.dataIndexLeft == |data| - cfg.visibilityPadding - 1
            && r.dataIndexRight == cfg.visibilityPadding + 1
            && r.insertionIndexLeft == cfg.elementCount - cfg.visibilityPadding - 1
            && r.insertionIndexRight == cfg.visibilityPadding + 1
    ensures r.visibleDataBounds == VisibleWindow(rule, 0, |data|, cfg.visibilityPadding)
    ensures 0 <= cfg.visibilityPadding && cfg.elementCount <= |data| ==>
      (Valid(cfg, r) <==> cfg.visibilityPadding + 2 <= cfg.elementCount)
  {
    var tagged := AssignIndexes(data);
    var p := cfg.visibilityPadding;
    Carousel(
      tagged,
      OffsetData(tagged, cfg.elementCount),
      0,
      |data| - p - 1, p + 1,
      cfg.elementCount - p - 1, p + 1,
      0.0, 0, 0, false,
      VisibleWindow(rule, 0, |data|, p),
      [])
  }

  /**
   * The constructor with the split of the display window rounded up at the
   * head (`CorrectedOffsetData`), everything else as in `Init`.  It differs
   * from `Init` only for an odd `elementCount`, and then only in the middle
   * slot, which holds the item `elementCount / 2` places after index 0.
   */
  function InitCorrected<T>(cfg: Config, rule: BoundsRule, data: seq<T>): (r: Carousel<T>)
    ensures r == Init(cfg, rule, data).(displayData := r.displayData)
    ensures cfg.elementCount % 2 == 0 ==> r == Init(cfg, rule, data)
    ensures 0 <= cfg.elementCount <= |data| && cfg.elementCount % 2 == 1 ==>
      r.displayData == Init(cfg, rule, data).displayData[cfg.elementCount / 2 := r.data[cfg.elementCount / 2]]
  {
    var s := Init(cfg, rule, data);
    s.(displayData := CorrectedOffsetData(s.data, cfg.elementCount))
  }

  /** A drag with negative `dx` goes left. */
  function DirectionOf(dx: real): Direction {
    if dx < 0.0 then Left else Right
  }

  /** The breakpoints and slot angle held in the component's state. */
  function RingBreakpoints(cfg: Config): (r: seq<real>)
    requires cfg.elementCount >= 1
    ensures |r| == cfg.elementCount
    ensures forall i :: 0 <= i < |r| ==> r[i] == i as real * Theta(cfg.elementCount)
  {
    Breakpoints(cfg.elementCount, Theta(cfg.elementCount))
  }

  /** `_getClosestIndex` over the ring's own breakpoints. */
  function Closest(cfg: Config, offset: real, dir: Direction): (r: int)
    requires cfg.elementCount >= 1
    ensures 0 <= r < cfg.elementCount
  {
    ClosestIndex(offset, RingBreakpoints(cfg), Theta(cfg.elementCount), dir)
  }

  /**
   * Slide the ring buffer one slot in direction `dir`: both cursor pairs step
   * and the two slots they now name are rebound to the data items they now
   * name.  Nothing else changes.
   */
  function Slide<T>(cfg: Config, s: Carousel<T>, dir: Direction): (r: Carousel<T>)
    requires Valid(cfg, s)
    ensures Valid(cfg, r)
    ensures var k := if dir == Left then 1 else -1;
      && r.insertionIndexLeft == Neighbour(s.insertionIndexLeft, k, cfg.elementCount)
      && r.insertionIndexRight == Neighbour(s.insertionIndexRight, k, cfg.elementCount)
      && r.dataIndexLeft == Neighbour(s.dataIndexLeft, k, |s.data|)
      && r.dataIndexRight == Neighbour(s.dataIndexRight, k, |s.data|)
    ensures r.displayData == DisplayData(s.data, s.displayData, r.dataIndexLeft, r.dataIndexRight,
                                         r.insertionIndexLeft, r.insertionIndexRight)
    ensures r == s.(insertionIndexLeft := r.insertionIndexLeft, insertionIndexRight := r.insertionIndexRight,
                    dataIndexLeft := r.dataIndexLeft, dataIndexRight := r.dataIndexRight,
                    displayData := r.displayData)
  {
    var insertion := ShiftCursors(s.insertionIndexLeft, s.insertionIndexRight, cfg.elementCount, dir);
    var dataCursors := ShiftCursors(s.dataIndexLeft, s.dataIndexRight, |s.data|, dir);
    s.(insertionIndexLeft := insertion.0,
       insertionIndexRight := insertion.1,
       dataIndexLeft := dataCursors.0,
       dataIndexRight := dataCursors.1,
       displayData := DisplayData(s.data, s.displayData, dataCursors.0, dataCursors.1, insertion.0, insertion.1))
  }

  // ---------------------------------------------------------------------------
  // Drag move
  // ---------------------------------------------------------------------------

  /** The rotation offset a nonzero move leaves behind. */
  function MoveOffset<T>(s: Carousel<T>, thetaOffset: real): real {
    ResetRevolution(s.rotationOffset) - thetaOffset
  }

  /** The slot closest to the front after a nonzero move. */
  function MoveRotationIndex<T>(cfg: Config, s: Carousel<T>, dx: real, thetaOffset: real): int
    requires cfg.elementCount >= 1
  {
    Closest(cfg, MoveOffset(s, thetaOffset), DirectionOf(dx))
  }

  /**
   * `onPanResponderMove`.  A zero `dx` is ignored.  Otherwise the first move
   * of a gesture announces the scroll, the offset is reset by one revolution
   * if needed and advanced by `-thetaOffset`, and, when the closest slot
   * differs from `rotationIndex`, the data index and the ring buffer step
   * once in the drag's direction.  The rendered window is recomputed, under
   * `rule`, from the data index as it was BEFORE the step.
   */
  function Move<T>(cfg: Config, rule: BoundsRule, s: Carousel<T>, dx: real, thetaOffset: real): (r: Carousel<T>)
    requires Valid(cfg, s)
    ensures Valid(cfg, r)
    ensures dx == 0.0 ==> r == s
    ensures dx != 0.0 ==>
      && r.scrolling
      && r.rotationOffset == ResetRevolution(s.rotationOffset) - thetaOffset
      && r.data == s.data
      && r.log == s.log + (if s.scrolling then [] else [ScrollBegin(s.dataIndex)]) + [Scroll(r.dataIndex)]
    ensures dx != 0.0 && MoveRotationIndex(cfg, s, dx, thetaOffset) != s.rotationIndex ==>
      var k := if dx < 0.0 then 1 else -1;
      && r.rotationIndex == MoveRotationIndex(cfg, s, dx, thetaOffset)
      && r.selectedIndex == r.rotationIndex
      && r.dataIndex == Neighbour(s.dataIndex, k, |s.data|)
      && r.dataIndexLeft == Neighbour(s.dataIndexLeft, k, |s.data|)
      && r.dataIndexRight == Neighbour(s.dataIndexRight, k, |s.data|)
      && r.insertionIndexLeft == Neighbour(s.insertionIndexLeft, k, cfg.elementCount)
      && r.insertionIndexRight == Neighbour(s.insertionIndexRight, k, cfg.elementCount)
      && r.displayData == DisplayData(s.data, s.displayData, r.dataIndexLeft, r.dataIndexRight,
                                      r.insertionIndexLeft, r.insertionIndexRight)
      && r.visibleDataBounds == VisibleWindow(rule, s.dataIndex, |s.data|, cfg.visibilityPadding)
    ensures dx != 0.0 && MoveRotationIndex(cfg, s, dx, thetaOffset) == s.rotationIndex ==>
      r == s.(rotationOffset := r.rotationOffset, scrolling := true, log := r.log)
  {
    if dx == 0.0 then s
    else
      var dir := DirectionOf(dx);
      var begun := if s.scrolling then s else s.(log := s.log + [ScrollBegin(s.dataIndex)], scrolling := true);
      var offset := MoveOffset(s, thetaOffset);
      var newRotationIndex := MoveRotationIndex(cfg, s, dx, thetaOffset);
      if newRotationIndex != s.rotationIndex then
        var newDataIndex := Step(s.dataIndex, |s.data|, dir);
        var visible := VisibleWindow(rule, s.dataIndex, |s.data|, cfg.visibilityPadding);
        Slide(cfg, begun, dir).(
          rotationIndex := newRotationIndex,
          visibleDataBounds := visible,
          dataIndex := newDataIndex,
          rotationOffset := offset,
          selectedIndex := newRotationIndex,
          log := begun.log + [Scroll(newDataIndex)])
      else
        begun.(rotationOffset := offset, log := begun.log + [Scroll(s.dataIndex)])
  }

  // ---------------------------------------------------------------------------
  // Snapping and drag release
  // ---------------------------------------------------------------------------

  /**
   * Snap to the closest slot: the offset becomes `2π - breakpoints[slot]`,
   * `rotationIndex` becomes that slot, scrolling stops and the end of the
   * scroll is announced.
   */
  function Snap<T>(cfg: Config, s: Carousel<T>, dir: Direction): (r: Carousel<T>)
    requires cfg.elementCount >= 1
    ensures 0 <= r.rotationIndex < cfg.elementCount
    ensures r.rotationIndex == Closest(cfg, s.rotationOffset, dir)
    ensures r.rotationOffset == 2.0 * Pi - RingBreakpoints(cfg)[r.rotationIndex]
    ensures !r.scrolling && r.log == s.log + [ScrollEnd(s.dataIndex)]
    ensures r == s.(rotationOffset := r.rotationOffset, rotationIndex := r.rotationIndex,
                    scrolling := false, log := r.log)
  {
    var selected := Closest(cfg, s.rotationOffset, dir);
    s.(rotationOffset := SnapOffset(RingBreakpoints(cfg), selected),
       rotationIndex := selected,
       scrolling := false,
       log := s.log + [ScrollEnd(s.dataIndex)])
  }

  /** `this.rotationIndex`, which the release handler reads and nothing ever assigns. */
  const InstanceRotationIndex: Option<int> := None

  /**
   * `onPanResponderRelease`.  A zero `dx` is ignored.  Otherwise the closest
   * slot is compared with `this.rotationIndex`; as that is always undefined,
   * the release always snaps.
   */
  function Release<T>(cfg: Config, s: Carousel<T>, dx: real): (r: Carousel<T>)
    requires cfg.elementCount >= 1
    ensures dx == 0.0 ==> r == s
    ensures dx != 0.0 ==> r == Snap(cfg, s, DirectionOf(dx))
  {
    if dx == 0.0 then s
    else
      var dir := DirectionOf(dx);
      var selected := Closest(cfg, s.rotationOffset, dir);
      if Some(selected) != InstanceRotationIndex then Snap(cfg, s, dir)
      else s.(scrolling := false, log := s.log + [ScrollEnd(s.dataIndex)])
  }

  // ---------------------------------------------------------------------------
  // scrollToIndex
  // ---------------------------------------------------------------------------

  /** The result of `_getScrollToIndex`. */
  datatype Plan = Plan(direction: Direction, stepCount: int)

  /**
   * `_getScrollToIndex`: go left (up the data) or right (down the data),
   * whichever circular path is strictly shorter; a tie goes the other way
   * round from the branch taken.
   */
  function ScrollPlan(dataIndex: int, index: int, length: int): (r: Plan)
    ensures 0 <= dataIndex < length && 0 <= index < length && index != dataIndex ==>
      var d := if index > dataIndex then index - dataIndex else dataIndex - index;
      && r.stepCount == (if d < length - d then d else length - d)
      && 1 <= r.stepCount <= length / 2
  {
    if index > dataIndex then
      if index - dataIndex < length - index + dataIndex then Plan(Left, index - dataIndex)
      else Plan(Right, length - index + dataIndex)
    else
      if dataIndex - index < length - dataIndex + index then Plan(Right, dataIndex - index)
      else Plan(Left, length - dataIndex + index)
  }

  /**
   * Which scroll steps rebind the ring buffer.  As written, a step rebinds
   * only when its rotation index differs from the one captured when the
   * scroll began; the corrected policy rebinds on every step.
   */
  datatype WindowPolicy = SinceScrollStart(captured: int) | EveryStep

  /** Whether a step whose closest slot is `selected` rebinds the ring buffer. */
  predicate Rebinds(policy: WindowPolicy, selected: int) {
    policy.EveryStep? || selected != policy.captured
  }

  /** The rotation offset after one scroll step: a slot angle, 1.1 of them on the last step. */
  function StepOffset(cfg: Config, offset: real, dir: Direction, last: bool): real
    requires cfg.elementCount >= 1
  {
    var t := Theta(cfg.elementCount);
    var delta := if last then t * 1.1 else t;
    if dir == Right then ResetRevolution(offset) + delta else ResetRevolution(offset) - delta
  }

  /**
   * One step of `scrollToIndex`: reset the offset by a revolution if needed,
   * move the data index one step, turn the ring by one slot angle (1.1 slot
   * angles on the last step), recompute the selected slot, and, when the
   * policy says so, slide the ring buffer, take the selected slot as the
   * rotation index and recompute the rendered window under `rule` from the
   * new data index.  A step that does not rebind changes nothing else.
   */
  function ScrollStep<T>(cfg: Config, rule: BoundsRule, s: Carousel<T>, dir: Direction, last: bool,
                         policy: WindowPolicy): (r: Carousel<T>)
    requires Valid(cfg, s)
    ensures Valid(cfg, r)
    ensures r.data == s.data && r.log == s.log && r.scrolling == s.scrolling
    ensures r.dataIndex == Step(s.dataIndex, |s.data|, dir)
    ensures r.dataIndex == Neighbour(s.dataIndex, if dir == Left then 1 else -1, |s.data|)
    ensures r.rotationOffset == StepOffset(cfg, s.rotationOffset, dir, last)
    ensures r.selectedIndex == Closest(cfg, r.rotationOffset, dir)
    ensures Rebinds(policy, r.selectedIndex) ==>
      var k := if dir == Left then 1 else -1;
      && r.rotationIndex == r.selectedIndex
      && r.dataIndexLeft == Neighbour(s.dataIndexLeft, k, |s.data|)
      && r.dataIndexRight == Neighbour(s.dataIndexRight, k, |s.data|)
      && r.insertionIndexLeft == Neighbour(s.insertionIndexLeft, k, cfg.elementCount)
      && r.insertionIndexRight == Neighbour(s.insertionIndexRight, k, cfg.elementCount)
      && r.displayData == DisplayData(s.data, s.displayData, r.dataIndexLeft, r.dataIndexRight,
                                      r.insertionIndexLeft, r.insertionIndexRight)
      && r.visibleDataBounds == VisibleWindow(rule, r.dataIndex, |s.data|, cfg.visibilityPadding)
    ensures !Rebinds(policy, r.selectedIndex) ==>
      r == s.(dataIndex := r.dataIndex, rotationOffset := r.rotationOffset, selectedIndex := r.selectedIndex)
  {
    StepIsNeighbour(s.dataIndex, |s.data|, dir);
    var newDataIndex := Step(s.dataIndex, |s.data|, dir);
    var offset := StepOffset(cfg, s.rotationOffset, dir, last);
    var selected := Closest(cfg, offset, dir);
    var stepped := s.(dataIndex := newDataIndex, rotationOffset := offset, selectedIndex := selected);
    if Rebinds(policy, selected) then
      Slide(cfg, stepped, dir).(
        rotationIndex := selected,
        visibleDataBounds := VisibleWindow(rule, newDataIndex, |s.data|, cfg.visibilityPadding))
    else
      stepped
  }

  /**
   * The `step` recursion of `scrollToIndex` from step number `count`: keep
   * stepping while the new count is below `stepCount`.  At least one step is
   * taken, so the data index moves `max(stepCount - count, 1)` times.
   */
  function ScrollSteps<T>(cfg: Config, rule: BoundsRule, s: Carousel<T>, dir: Direction, stepCount: int, count: int,
                          policy: WindowPolicy): (r: Carousel<T>)
    requires Valid(cfg, s)
    ensures Valid(cfg, r)
    ensures r.data == s.data && r.log == s.log && r.scrolling == s.scrolling
    ensures r.dataIndex == Iterate(s.dataIndex, |s.data|, dir, if stepCount - count > 1 then stepCount - count else 1)
    decreases stepCount - count
  {
    var newCount := count + 1;
    var stepped := ScrollStep(cfg, rule, s, dir, !(newCount < stepCount), policy);
    if newCount < stepCount then ScrollSteps(cfg, rule, stepped, dir, stepCount, newCount, policy)
    else stepped
  }

  /** Before the last step, the step sequence continues from the next count. */
  lemma ScrollStepsNext<T>(cfg: Config, rule: BoundsRule, s: Carousel<T>, dir: Direction, stepCount: int, count: int,
                           policy: WindowPolicy)
    requires Valid(cfg, s) && count + 1 < stepCount
    ensures ScrollSteps(cfg, rule, s, dir, stepCount, count, policy)
         == ScrollSteps(cfg, rule, ScrollStep(cfg, rule, s, dir, false, policy), dir, stepCount, count + 1, policy)
  {
  }

  /** The last step is the one taken when the next count reaches `stepCount`. */
  lemma ScrollStepsLast<T>(cfg: Config, rule: BoundsRule, s: Carousel<T>, dir: Direction, stepCount: int, count: int,
                           policy: WindowPolicy)
    requires Valid(cfg, s) && count + 1 >= stepCount
    ensures ScrollSteps(cfg, rule, s, dir, stepCount, count, policy) == ScrollStep(cfg, rule, s, dir, true, policy)
  {
  }

  /**
   * `scrollToIndex` under a bounds rule and a window policy.  Scrolling to
   * the current index changes nothing.  Any other call announces the begin
   * of the scroll from the old index and its end at the new one, stops
   * scrolling, and snaps the offset to a valid slot.
   */
  function ScrollToIndexWith<T>(cfg: Config, rule: BoundsRule, s: Carousel<T>, index: int,
                                policy: WindowPolicy): (r: Carousel<T>)
    requires Valid(cfg, s)
    ensures Valid(cfg, r)
    ensures r.data == s.data
    ensures index == s.dataIndex ==> r == s
    ensures index != s.dataIndex ==>
      && !r.scrolling
      && r.log == s.log + [ScrollBegin(s.dataIndex), ScrollEnd(r.dataIndex)]
      && 0 <= r.rotationIndex < cfg.elementCount
      && r.rotationOffset == 2.0 * Pi - RingBreakpoints(cfg)[r.rotationIndex]
  {
    if index == s.dataIndex then s
    else
      var plan := ScrollPlan(s.dataIndex, index, |s.data|);
      var begun := s.(log := s.log + [ScrollBegin(s.dataIndex)]);
      Snap(cfg, ScrollSteps(cfg, rule, begun, plan.direction, plan.stepCount, 0, policy), plan.direction)
  }

  /**
   * `scrollToIndex` as written: the rendered window is the one as written,
   * and the ring buffer is rebound only on steps whose rotation index
   * differs from the `rotationIndex` read when the call began.  It still
   * reaches an in-range target and announces and snaps like any scroll.
   */
  function ScrollToIndexAsWritten<T>(cfg: Config, s: Carousel<T>, index: int): (r: Carousel<T>)
    requires Valid(cfg, s)
    ensures Valid(cfg, r)
    ensures 0 <= index < |s.data| ==> r.dataIndex == index
    ensures index == s.dataIndex ==> r == s
    ensures index != s.dataIndex ==>
      && !r.scrolling
      && r.log == s.log + [ScrollBegin(s.dataIndex), ScrollEnd(r.dataIndex)]
      && 0 <= r.rotationIndex < cfg.elementCount
      && r.rotationOffset == 2.0 * Pi - RingBreakpoints(cfg)[r.rotationIndex]
  {
    ScrollToIndexLands(cfg, AsWrittenBounds, s, index, SinceScrollStart(s.rotationIndex));
    ScrollToIndexWith(cfg, AsWrittenBounds, s, index, SinceScrollStart(s.rotationIndex))
  }

  /**
   * `scrollToIndex` with the ring buffer rebound on every step, so that it
   * moves in lockstep with the data index as it does during a drag, and the
   * rendered window under `rule`.  An in-range target is reached; any other
   * call announces the begin and the end of the scroll and leaves the offset
   * snapped to a slot.
   */
  function ScrollToIndex<T>(cfg: Config, rule: BoundsRule, s: Carousel<T>, index: int): (r: Carousel<T>)
    requires Valid(cfg, s)
    ensures Valid(cfg, r)
    ensures 0 <= index < |s.data| ==> r.dataIndex == index
    ensures index == s.dataIndex ==> r == s
    ensures index != s.dataIndex ==>
      && !r.scrolling
      && r.log == s.log + [ScrollBegin(s.dataIndex), ScrollEnd(r.dataIndex)]
      && 0 <= r.rotationIndex < cfg.elementCount
      && r.rotationOffset == 2.0 * Pi - RingBreakpoints(cfg)[r.rotationIndex]
  {
    ScrollToIndexLands(cfg, rule, s, index, EveryStep);
    ScrollToIndexWith(cfg, rule, s, index, EveryStep)
  }

  /** Under any bounds rule, either policy reaches an in-range target: the plan's steps land on it. */
  lemma ScrollToIndexLands<T>(cfg: Config, rule: BoundsRule, s: Carousel<T>, index: int, policy: WindowPolicy)
    requires Valid(cfg, s)
    ensures 0 <= index < |s.data| ==> ScrollToIndexWith(cfg, rule, s, index, policy).dataIndex == index
  {
    if 0 <= index < |s.data| && index != s.dataIndex {
      var plan := ScrollPlan(s.dataIndex, index, |s.data|);
      ScrollPlanLands(s.dataIndex, index, |s.data|);
    }
  }

  /**
   * The plan's direction and step count lead from `dataIndex` to `index`.
   */
  lemma ScrollPlanLands(dataIndex: int, index: int, length: int)
    requires 0 <= dataIndex < length && 0 <= index < length && index != dataIndex
    ensures var plan := ScrollPlan(dataIndex, index, length);
            Iterate(dataIndex, length, plan.direction, plan.stepCount) == index
  {
    var plan := ScrollPlan(dataIndex, index, length);
    IterateClosedForm(dataIndex, length, plan.direction, plan.stepCount);
    if plan.direction == Left {
      ModNear(dataIndex + plan.stepCount, length);
    } else {
      ModNear(dataIndex - plan.stepCount, length);
    }
  }
}

=== FILE: geometry.dfy ===
/**
 * The angle and index helpers of `CircleList` (src/CircleList.js): snap
 * breakpoints, the closest-slot search, the one-revolution reset of the
 * rotation offset, the snap offset, and the window of data indices that may
 * be rendered.  Angles are reals; floating-point rounding is not modelled.
 */
module Geometry {
  import opened RingMath

  /** `Math.PI`, written as the decimal the JavaScript engine prints for it. */
  const Pi: real := 3.141592653589793

  function Abs(x: real): real {
    if x < 0.0 then -x else x
  }

  /** Angle between neighbouring ring slots, `2π / elementCount`. */
  function Theta(elementCount: int): (r: real)
    requires elementCount >= 1
    ensures r > 0.0
    ensures r * elementCount as real == 2.0 * Pi
  {
    2.0 * Pi / elementCount as real
  }

  // ---------------------------------------------------------------------------
  // Breakpoints
  // ---------------------------------------------------------------------------

  /**
   * The recursion inside `_getBreakpoints`: emit `count * separationAngle`,
   * then continue while `count < elementCount - 1`.  At least one value is
   * always emitted.
   */
  function BreakpointsFrom(count: int, elementCount: int, separationAngle: real): (r: seq<real>)
    ensures |r| == if count < elementCount - 1 then elementCount - count else 1
    ensures forall i :: 0 <= i < |r| ==> r[i] == (count + i) as real * separationAngle
    decreases elementCount - count
  {
    [count as real * separationAngle]
      + (if count < elementCount - 1 then BreakpointsFrom(count + 1, elementCount, separationAngle) else [])
  }

  /**
   * `_getBreakpoints`: the snap angles `i * separationAngle` for each slot.
   * A non-positive `elementCount` still yields the single angle 0.
   */
  function Breakpoints(elementCount: int, separationAngle: real): (r: seq<real>)
    ensures elementCount >= 1 ==> |r| == elementCount
    ensures elementCount <= 0 ==> r == [0.0]
    ensures forall i :: 0 <= i < |r| ==> r[i] == i as real * separationAngle
  {
    BreakpointsFrom(0, elementCount, separationAngle)
  }

  // ---------------------------------------------------------------------------
  // Closest index
  // ---------------------------------------------------------------------------

  /**
   * The angular distance `_getClosestIndex` assigns to slot `index` for a
   * rotation `offset`, given `count` breakpoints.  Only the number of
   * breakpoints matters, not their values.
   */
  function Distance(offset: real, count: int, separationAngle: real, dir: Direction, index: int): real {
    if offset >= 0.0 then
      if index == 0 && dir == Left then 2.0 * Pi - Abs(count as real * separationAngle - offset)
      else Abs((count - index) as real * separationAngle - offset)
    else
      Abs(offset + index as real * separationAngle)
  }

  /** The `offsets` array of `_getClosestIndex`: one distance per breakpoint. */
  function Offsets(offset: real, breakpoints: seq<real>, separationAngle: real, dir: Direction): (r: seq<real>)
    ensures |r| == |breakpoints|
  {
    seq(|breakpoints|, i => Distance(offset, |breakpoints|, separationAngle, dir, i))
  }

  /** `k` is the first position at which `xs` attains its minimum. */
  ghost predicate IsFirstMinimum(xs: seq<real>, k: int) {
    && 0 <= k < |xs|
    && (forall j :: 0 <= j < |xs| ==> xs[k] <= xs[j])
    && (forall j :: 0 <= j < k ==> xs[k] < xs[j])
  }

  /** `Math.min(...xs)` for a non-empty array. */
  function Minimum(xs: seq<real>): (m: real)
    requires |xs| > 0
    ensures m in xs
    ensures forall j :: 0 <= j < |xs| ==> m <= xs[j]
  {
    if |xs| == 1 then xs[0]
    else
      var rest := Minimum(xs[1..]);
      if xs[0] <= rest then xs[0] else rest
  }

  /** `xs.indexOf(v)`: the first position holding `v`, or -1. */
  function IndexOf(xs: seq<real>, v: real): (r: int)
    ensures r == -1 <==> v !in xs
    ensures r != -1 ==> 0 <= r < |xs| && xs[r] == v && forall j :: 0 <= j < r ==> xs[j] != v
  {
    if |xs| == 0 then -1
    else if xs[0] == v then 0
    else
      var k := IndexOf(xs[1..], v);
      if k == -1 then -1 else k + 1
  }

  /**
   * The scan for the first minimum of `xs` from position `from` on, where
   * `best` is the first minimum of the positions before `from`.
   */
  function FirstMinimumFrom(xs: seq<real>, from: nat, best: nat): (r: int)
    requires best < from <= |xs|
    requires forall j :: 0 <= j < from ==> xs[best] <= xs[j]
    requires forall j :: 0 <= j < best ==> xs[best] < xs[j]
    ensures IsFirstMinimum(xs, r)
    decreases |xs| - from
  {
    if from == |xs| then best
    else FirstMinimumFrom(xs, from + 1, if xs[from] < xs[best] then from else best)
  }

  /**
   * `_getClosestIndex`: the first slot of minimum distance, or -1 when there
   * are no breakpoints (`Math.min()` is `Infinity`, which `indexOf` misses).
   * The first minimum is found in one scan; `ClosestIndexMatchesSource`
   * shows that this is `offsets.indexOf(Math.min(...offsets))`.
   */
  function ClosestIndex(offset: real, breakpoints: seq<real>, separationAngle: real, dir: Direction): (r: int)
    ensures |breakpoints| == 0 ==> r == -1
    ensures |breakpoints| > 0 ==> IsFirstMinimum(Offsets(offset, breakpoints, separationAngle, dir), r)
  {
    var offsets := Offsets(offset, breakpoints, separationAngle, dir);
    if |offsets| == 0 then -1 else FirstMinimumFrom(offsets, 1, 0)
  }

  /** The position `indexOf` finds for the minimum is the first minimum. */
  lemma IndexOfMinimum(xs: seq<real>)
    requires |xs| > 0
    ensures IsFirstMinimum(xs, IndexOf(xs, Minimum(xs)))
  {
    var m := Minimum(xs);
    var k := IndexOf(xs, m);
    forall j | 0 <= j < k
      ensures xs[k] < xs[j]
    {
      assert xs[j] != m && m <= xs[j];
    }
  }

  /** With at least one breakpoint, `ClosestIndex` is `offsets.indexOf(Math.min(...offsets))`. */
  lemma ClosestIndexMatchesSource(offset: real, breakpoints: seq<real>, separationAngle: real, dir: Direction)
    ensures var offsets := Offsets(offset, breakpoints, separationAngle, dir);
            |offsets| > 0 ==> ClosestIndex(offset, breakpoints, separationAngle, dir) == IndexOf(offsets, Minimum(offsets))
  {
    var offsets := Offsets(offset, breakpoints, separationAngle, dir);
    if |offsets| > 0 {
      IndexOfMinimum(offsets);
      FirstMinimumUnique(offsets, ClosestIndex(offset, breakpoints, separationAngle, dir),
                         IndexOf(offsets, Minimum(offsets)));
    }
  }

  /** There is only one first minimum. */
  lemma FirstMinimumUnique(xs: seq<real>, a: int, b: int)
    requires IsFirstMinimum(xs, a) && IsFirstMinimum(xs, b)
    ensures a == b
  {
    assert xs[a] == xs[b];
    if a < b {
      assert false;
    } else if b < a {
      assert false;
    }
  }

  /** A first minimum of the distances is the closest index. */
  lemma ClosestIndexIs(offset: real, breakpoints: seq<real>, separationAngle: real, dir: Direction, k: int)
    requires IsFirstMinimum(Offsets(offset, breakpoints, separationAngle, dir), k)
    ensures ClosestIndex(offset, breakpoints, separationAngle, dir) == k
  {
    FirstMinimumUnique(Offsets(offset, breakpoints, separationAngle, dir),
      ClosestIndex(offset, breakpoints, separationAngle, dir), k);
  }

  /**
   * The swipe direction only matters through slot 0 at a non-negative offset:
   * when the two directions disagree, the offset is non-negative and one of
   * the two answers is slot 0.
   */
  lemma ClosestIndexDirection(offset: real, breakpoints: seq<real>, separationAngle: real)
    requires |breakpoints| > 0
    ensures var l := ClosestIndex(offset, breakpoints, separationAngle, Left);
            var r := ClosestIndex(offset, breakpoints, separationAngle, Right);
            l != r ==> offset >= 0.0 && (l == 0 || r == 0)
  {
    var xl := Offsets(offset, breakpoints, separationAngle, Left);
    var xr := Offsets(offset, breakpoints, separationAngle, Right);
    var l := ClosestIndex(offset, breakpoints, separationAngle, Left);
    var r := ClosestIndex(offset, breakpoints, separationAngle, Right);
    assert forall i :: 1 <= i < |breakpoints| ==> xl[i] == xr[i];
    if offset < 0.0 {
      assert xl == xr;
    }
  }

  // ---------------------------------------------------------------------------
  // Revolution reset and snapping
  // ---------------------------------------------------------------------------

  /**
   * The reset applied before every move and scroll step: subtract or add one
   * revolution when the offset has passed `2π` or `-2π`, otherwise keep it.
   */
  function ResetRevolution(offset: real): (r: real)
    ensures r == offset || r == offset - 2.0 * Pi || r == offset + 2.0 * Pi
    ensures -4.0 * Pi <= offset <= 4.0 * Pi ==> -2.0 * Pi <= r <= 2.0 * Pi
    ensures -2.0 * Pi <= offset <= 2.0 * Pi ==> r == offset
  {
    if offset > 2.0 * Pi then offset - 2.0 * Pi
    else if offset < -2.0 * Pi then offset + 2.0 * Pi
    else offset
  }

  /**
   * The offset that aligns slot `index` with the front: `2π - breakpoints[index]`.
   * Over a ring's own breakpoints that is the whole number of slot angles
   * from slot `index` round to slot 0 again, in `(0, 2π]`.
   */
  function SnapOffset(breakpoints: seq<real>, index: int): (r: real)
    requires 0 <= index < |breakpoints|
    ensures breakpoints == Breakpoints(|breakpoints|, Theta(|breakpoints|)) ==>
      && r == (|breakpoints| - index) as real * Theta(|breakpoints|)
      && 0.0 < r <= 2.0 * Pi
  {
    var n := |breakpoints|;
    if breakpoints == Breakpoints(n, Theta(n)) then
      SnapOffsetSlots(n, index);
      assert breakpoints[index] == index as real * Theta(n);
      assert index as real * Theta(n) >= 0.0 by {
        if index > 0 { MulPos(index as real, Theta(n)); }
      }
      2.0 * Pi - breakpoints[index]
    else
      2.0 * Pi - breakpoints[index]
  }

  lemma MulPos(a: real, b: real)
    requires a > 0.0 && b > 0.0
    ensures a * b > 0.0
  {
  }

  /** The snap offset of slot `index` is `elementCount - index` slot angles, and positive. */
  lemma SnapOffsetSlots(elementCount: int, index: int)
    requires elementCount >= 1 && 0 <= index < elementCount
    ensures var t := Theta(elementCount);
            && 2.0 * Pi - index as real * t == (elementCount - index) as real * t
            && 0.0 < 2.0 * Pi - index as real * t
  {
    var t := Theta(elementCount);
    assert 2.0 * Pi - index as real * t == (elementCount - index) as real * t;
    MulPos((elementCount - index) as real, t);
  }

  /**
   * Away from the seam, slot `index` is at distance 0 from its own snap
   * offset and every other slot is further away.
   */
  lemma SnapDistance(elementCount: int, index: int, dir: Direction, j: int)
    requires elementCount >= 1 && 0 <= index < elementCount && 0 <= j < elementCount
    requires !(index == 0 && dir == Left)
    ensures var t := Theta(elementCount);
            var d := Distance(2.0 * Pi - index as real * t, elementCount, t, dir, j);
            && (j == index ==> d == 0.0)
            && (j != index ==> d > 0.0)
  {
    var n, t := elementCount, Theta(elementCount);
    var o := 2.0 * Pi - index as real * t;
    SnapOffsetSlots(n, index);
    if j == 0 && dir == Left {
      assert n as real * t - o == index as real * t;
      MulPos(index as real, t);
    } else {
      assert (n - j) as real * t - o == (index - j) as real * t;
      if index > j {
        MulPos((index - j) as real, t);
      } else if j > index {
        MulPos((j - index) as real, t);
      }
    }
  }

  /**
   * At the seam, the leftward special case puts slot 0 a full revolution
   * away from offset `2π`, and slot `j` is `j` slot angles away.
   */
  lemma SeamSnapDistance(elementCount: int, j: int)
    requires elementCount >= 1 && 0 <= j < elementCount
    ensures var t := Theta(elementCount);
            var d := Distance(2.0 * Pi, elementCount, t, Left, j);
            && (j == 0 ==> d == 2.0 * Pi)
            && (j != 0 ==> d == j as real * t)
  {
    var n, t := elementCount, Theta(elementCount);
    if j != 0 {
      assert (n - j) as real * t - 2.0 * Pi == -(j as real * t);
      MulPos(j as real, t);
    }
  }

  /** Away from the seam, slot `index` is the first minimum at its own snap offset. */
  lemma SnapFirstMinimum(elementCount: int, index: int, dir: Direction)
    requires elementCount >= 1 && 0 <= index < elementCount && !(index == 0 && dir == Left)
    ensures var bp := Breakpoints(elementCount, Theta(elementCount));
            IsFirstMinimum(Offsets(SnapOffset(bp, index), bp, Theta(elementCount), dir), index)
  {
    var bp := Breakpoints(elementCount, Theta(elementCount));
    var xs := Offsets(SnapOffset(bp, index), bp, Theta(elementCount), dir);
    forall j | 0 <= j < elementCount
      ensures (j == index ==> xs[j] == 0.0) && (j != index ==> xs[j] > 0.0)
    {
      SnapDistance(elementCount, index, dir, j);
    }
  }

  /** At the seam, every slot but 1 is further away than slot 1, which is one slot angle away. */
  lemma SeamDistance(elementCount: int, j: int)
    requires elementCount >= 2 && 0 <= j < elementCount
    ensures var t := Theta(elementCount);
            var d := Distance(2.0 * Pi, elementCount, t, Left, j);
            && (j == 1 ==> d == t)
            && (j != 1 ==> t < d)
  {
    var t := Theta(elementCount);
    SeamSnapDistance(elementCount, j);
    if j == 0 {
      MulPos(elementCount as real - 1.0, t);
      assert 2.0 * Pi == (elementCount as real - 1.0) * t + t;
    } else if j > 1 {
      MulPos(j as real - 1.0, t);
      assert j as real * t == (j as real - 1.0) * t + t;
    }
  }

  /** At the seam, slot 1 is the first minimum of the leftward distances. */
  lemma SeamFirstMinimum(elementCount: int)
    requires elementCount >= 2
    ensures var bp := Breakpoints(elementCount, Theta(elementCount));
            IsFirstMinimum(Offsets(SnapOffset(bp, 0), bp, Theta(elementCount), Left), 1)
  {
    var t := Theta(elementCount);
    var bp := Breakpoints(elementCount, t);
    assert SnapOffset(bp, 0) == 2.0 * Pi;
    var xs := Offsets(2.0 * Pi, bp, t, Left);
    forall j | 0 <= j < elementCount
      ensures (j == 1 ==> xs[j] == t) && (j != 1 ==> t < xs[j])
    {
      SeamDistance(elementCount, j);
    }
  }

  /**
   * Snapping is stable: the snap offset of slot `index` lies in `(0, 2π]`,
   * and the closest index at that offset is `index` again, except at the
   * seam: slot 0 snaps to offset `2π`, where a leftward query answers slot 1.
   */
  lemma SnapIsStable(elementCount: int, index: int, dir: Direction)
    requires elementCount >= 1 && 0 <= index < elementCount
    ensures var bp := Breakpoints(elementCount, Theta(elementCount));
            var closest := ClosestIndex(SnapOffset(bp, index), bp, Theta(elementCount), dir);
            && SnapOffset(bp, index) == 2.0 * Pi - index as real * Theta(elementCount)
            && 0.0 < SnapOffset(bp, index) <= 2.0 * Pi
            && (index != 0 || dir == Right || elementCount == 1 ==> closest == index)
            && (index == 0 && dir == Left && elementCount >= 2 ==> closest == 1)
  {
    var t := Theta(elementCount);
    var bp := Breakpoints(elementCount, t);
    SnapOffsetSlots(elementCount, index);
    assert SnapOffset(bp, index) == 2.0 * Pi - index as real * t;
    if index > 0 {
      MulPos(index as real, t);
    }
    if index == 0 && dir == Left {
      if elementCount >= 2 {
        SeamFirstMinimum(elementCount);
        ClosestIndexIs(SnapOffset(bp, 0), bp, t, Left, 1);
      }
    } else {
      SnapFirstMinimum(elementCount, index, dir);
      ClosestIndexIs(SnapOffset(bp, index), bp, t, dir, index);
    }
  }

  lemma RestDistance(elementCount: int, j: int)
    requires 1 <= j < elementCount
    ensures var t := Theta(elementCount);
            && Distance(0.0, elementCount, t, Left, j) == Distance(0.0, elementCount, t, Right, j)
            && t <= Distance(0.0, elementCount, t, Right, j) < 2.0 * Pi
            && (j < elementCount - 1 ==> t < Distance(0.0, elementCount, t, Right, j))
            && (j == elementCount - 1 ==> t == Distance(0.0, elementCount, t, Right, j))
  {
    var n, t := elementCount, Theta(elementCount);
    var a := (n - j) as real * t;
    assert a == (n - j - 1) as real * t + t;
    if j < n - 1 {
      MulPos((n - j - 1) as real, t);
    }
    MulPos(j as real, t);
    assert a + j as real * t == 2.0 * Pi;
    assert Distance(0.0, n, t, Right, j) == Abs(a);
  }

  /**
   * At rest (offset 0) the two directions disagree: a leftward query answers
   * slot 0, a rightward one the last slot, one slot angle away.
   */
  lemma {:induction false} ClosestAtRest(elementCount: int)
    requires elementCount >= 2
    ensures var t := Theta(elementCount);
            var bp := Breakpoints(elementCount, t);
            && ClosestIndex(0.0, bp, t, Left) == 0
            && ClosestIndex(0.0, bp, t, Right) == elementCount - 1
  {
    ClosestAtRestLeft(elementCount);
    ClosestAtRestRight(elementCount);
  }

  lemma RestDistanceZero(elementCount: int)
    requires elementCount >= 1
    ensures Distance(0.0, elementCount, Theta(elementCount), Left, 0) == 0.0
    ensures Distance(0.0, elementCount, Theta(elementCount), Right, 0) == 2.0 * Pi
  {
    var t := Theta(elementCount);
    assert elementCount as real * t == 2.0 * Pi;
  }

  lemma {:induction false} ClosestAtRestLeft(elementCount: int)
    requires elementCount >= 2
    ensures var t := Theta(elementCount);
            ClosestIndex(0.0, Breakpoints(elementCount, t), t, Left) == 0
  {
    var n, t := elementCount, Theta(elementCount);
    var bp := Breakpoints(n, t);
    var xl := Offsets(0.0, bp, t, Left);
    forall j | 1 <= j < n
      ensures 0.0 < xl[j]
    {
      RestDistance(n, j);
    }
    RestDistanceZero(n);
    assert IsFirstMinimum(xl, 0);
    ClosestIndexIs(0.0, bp, t, Left, 0);
  }

  lemma {:induction false} ClosestAtRestRight(elementCount: int)
    requires elementCount >= 2
    ensures var t := Theta(elementCount);
            ClosestIndex(0.0, Breakpoints(elementCount, t), t, Right) == elementCount - 1
  {
    var n, t := elementCount, Theta(elementCount);
    var bp := Breakpoints(n, t);
    var xr := Offsets(0.0, bp, t, Right);
    RestDistance(n, n - 1);
    forall j | 1 <= j < n - 1
      ensures xr[n - 1] < xr[j]
    {
      RestDistance(n, j);
    }
    RestDistanceZero(n);
    assert IsFirstMinimum(xr, n - 1);
    ClosestIndexIs(0.0, bp, t, Right, n - 1);
  }

  lemma BelowRestDistance(elementCount: int, offset: real, dir: Direction, j: int)
    requires 1 <= j < elementCount
    requires -Theta(elementCount) / 2.0 < offset < 0.0
    ensures var t := Theta(elementCount);
            Distance(offset, elementCount, t, dir, 0) < t / 2.0 < Distance(offset, elementCount, t, dir, j)
  {
    var t := Theta(elementCount);
    var a := j as real * t;
    if j > 1 {
      MulPos((j - 1) as real, t);
    }
    assert a == (j - 1) as real * t + t;
    assert a >= t;
    assert Distance(offset, elementCount, t, dir, j) == Abs(offset + a);
    assert 0 as real * t == 0.0;
    assert Distance(offset, elementCount, t, dir, 0) == Abs(offset);
  }

  /** Just below rest, within half a slot angle, both directions answer slot 0. */
  lemma {:induction false} ClosestJustBelowRest(elementCount: int, offset: real, dir: Direction)
    requires elementCount >= 1
    requires -Theta(elementCount) / 2.0 < offset < 0.0
    ensures ClosestIndex(offset, Breakpoints(elementCount, Theta(elementCount)), Theta(elementCount), dir) == 0
  {
    var n, t := elementCount, Theta(elementCount);
    var bp := Breakpoints(n, t);
    var xs := Offsets(offset, bp, t, dir);
    forall j | 1 <= j < n
      ensures xs[0] < xs[j]
    {
      BelowRestDistance(n, offset, dir, j);
    }
    assert IsFirstMinimum(xs, 0);
    ClosestIndexIs(offset, bp, t, dir, 0);
  }

  // ---------------------------------------------------------------------------
  // Visible window
  // ---------------------------------------------------------------------------

  /**
   * The three inner recursions of `_getVisibleElements`: append `current + 1`,
   * then continue while the appended value is below `bound`.  At least one
   * value is always appended, and `bound` itself is the last one when reached.
   */
  function Run(current: int, bound: int): (r: seq<int>)
    ensures |r| == if current + 1 < bound then bound - current else 1
    ensures forall i :: 0 <= i < |r| ==> r[i] == current + 1 + i
    decreases bound - current
  {
    [current + 1] + (if current + 1 < bound then Run(current + 1, bound) else [])
  }

  /** The lower end of the window, wrapped once into range when negative. */
  function LeftBoundAdjusted(dataIndex: int, length: int, padding: int): int {
    var leftBound := dataIndex - padding - 1;
    if leftBound < 0 then length + leftBound else leftBound
  }

  /**
   * The window built from adjusted bounds: one ascending run from `leftAdjusted`
   * to `rightAdjusted`, or, when the bounds are crossed, a run up to `length`
   * followed by a run from 0 up to `rightAdjusted`.
   */
  function Window(leftAdjusted: int, rightAdjusted: int, length: int): seq<int> {
    if leftAdjusted > rightAdjusted then
      [leftAdjusted] + Run(leftAdjusted, length) + ([0] + Run(0, rightAdjusted))
    else
      [leftAdjusted] + Run(leftAdjusted, rightAdjusted)
  }

  /**
   * `_getVisibleElements` exactly as written: the upper bound is wrapped only
   * when it EXCEEDS `length`, so a window ending at `length` keeps `length`.
   * With the ring's usual proportions every value lies in `[0, length]`.
   */
  function VisibleElementsAsWritten(dataIndex: int, length: int, padding: int): (r: seq<int>)
    ensures 0 <= padding && 2 * padding + 3 <= length && 0 <= dataIndex < length ==>
      forall x :: x in r ==> 0 <= x <= length
  {
    var rightBound := dataIndex + padding + 1;
    var lo := LeftBoundAdjusted(dataIndex, length, padding);
    var hi := if rightBound > length then rightBound - length else rightBound;
    var r := Window(lo, hi, length);
    if 0 <= padding && 2 * padding + 3 <= length && 0 <= dataIndex < length then
      WindowRange(lo, hi, length);
      r
    else
      r
  }

  /**
   * `_getVisibleElements` with the upper bound wrapped once it REACHES
   * `length`, the same way the lower bound is wrapped once it leaves range.
   * Its values lie in `[0, length]` as well.
   */
  function VisibleElements(dataIndex: int, length: int, padding: int): (r: seq<int>)
    ensures 0 <= padding && 2 * padding + 3 <= length && 0 <= dataIndex < length ==>
      forall x :: x in r ==> 0 <= x <= length
  {
    var rightBound := dataIndex + padding + 1;
    var lo := LeftBoundAdjusted(dataIndex, length, padding);
    var hi := if rightBound >= length then rightBound - length else rightBound;
    var r := Window(lo, hi, length);
    if 0 <= padding && 2 * padding + 3 <= length && 0 <= dataIndex < length then
      WindowRange(lo, hi, length);
      r
    else
      r
  }

  /** Which upper-bound test the rendered window uses: as written (`>`) or corrected (`>=`). */
  datatype BoundsRule = AsWrittenBounds | CorrectedBounds

  /** The rendered window of `dataIndex` under `rule`. */
  function VisibleWindow(rule: BoundsRule, dataIndex: int, length: int, padding: int): seq<int> {
    match rule
    case AsWrittenBounds => VisibleElementsAsWritten(dataIndex, length, padding)
    case CorrectedBounds => VisibleElements(dataIndex, length, padding)
  }

  /** Membership in a window, in terms of its two adjusted bounds. */
  lemma WindowMembers(lo: int, hi: int, length: int, x: int)
    requires lo < length
    ensures x in Window(lo, hi, length) <==>
      if lo > hi then lo <= x <= length || 0 <= x <= (if hi > 1 then hi else 1)
      else lo <= x <= (if hi > lo + 1 then hi else lo + 1)
  {
    var w := Window(lo, hi, length);
    if lo > hi {
      var left := [lo] + Run(lo, length);
      var right := [0] + Run(0, hi);
      assert w == left + right;
      assert forall i :: 0 <= i < |left| ==> left[i] == lo + i;
      assert forall i :: 0 <= i < |right| ==> right[i] == i;
      if lo <= x <= length {
        assert left[x - lo] == x;
      } else if 0 <= x <= (if hi > 1 then hi else 1) {
        assert right[x] == x;
        assert w[|left| + x] == x;
      }
    } else {
      assert forall i :: 0 <= i < |w| ==> w[i] == lo + i;
      if lo <= x <= (if hi > lo + 1 then hi else lo + 1) {
        assert w[x - lo] == x;
      }
    }
  }

  /**
   * The shape of the window as written, for `length >= 2 * padding + 3`: an
   * ascending run `dataIndex - padding - 1 .. dataIndex + padding + 1` when it
   * fits, otherwise the run from the wrapped lower bound up to `length`
   * itself followed by `0 .. (dataIndex + padding + 1) mod length`.
   */
  lemma VisibleWindowShape(dataIndex: int, length: int, padding: int)
    requires 0 <= padding && 2 * padding + 3 <= length && 0 <= dataIndex < length
    ensures var r := VisibleElementsAsWritten(dataIndex, length, padding);
      var lo := (dataIndex - padding - 1) % length;
      var hi := (dataIndex + padding + 1) % length;
      if padding + 1 <= dataIndex && dataIndex + padding + 1 <= length then
        && |r| == 2 * padding + 3
        && forall i :: 0 <= i < |r| ==> r[i] == dataIndex - padding - 1 + i
      else
        && 0 < hi < lo
        && |r| == (length - lo + 1) + (hi + 1)
        && (forall i :: 0 <= i <= length - lo ==> r[i] == lo + i)
        && (forall i :: length - lo + 1 <= i < |r| ==> r[i] == i - (length - lo + 1))
  {
    var d, p, n := dataIndex, padding, length;
    ModNear(d - p - 1, n);
    ModNear(d + p + 1, n);
    var lo := LeftBoundAdjusted(d, n, p);
    var rb := d + p + 1;
    var hi := if rb > n then rb - n else rb;
    var r := VisibleElementsAsWritten(d, n, p);
    if !(p + 1 <= d && d + p + 1 <= n) {
      var left := [lo] + Run(lo, n);
      var right := [0] + Run(0, hi);
      assert r == left + right;
      assert forall i :: 0 <= i < |left| ==> left[i] == lo + i;
      assert forall i :: 0 <= i < |right| ==> right[i] == i;
    }
  }

  /** Every value of a window whose bounds lie in `[0, length]` lies there too. */
  lemma WindowInRange(lo: int, hi: int, length: int, x: int)
    requires 0 <= lo < length && hi <= length
    requires x in Window(lo, hi, length)
    ensures 0 <= x <= length
  {
    WindowMembers(lo, hi, length, x);
  }

  lemma WindowRange(lo: int, hi: int, length: int)
    requires 0 <= lo < length && hi <= length
    ensures forall x :: x in Window(lo, hi, length) ==> 0 <= x <= length
  {
    forall x | x in Window(lo, hi, length)
      ensures 0 <= x <= length
    {
      WindowInRange(lo, hi, length, x);
    }
  }

  /** One neighbour of `dataIndex` in the window as written. */
  lemma AsWrittenHasNeighbour(dataIndex: int, length: int, padding: int, j: int)
    requires 0 <= padding && 2 * padding + 3 <= length && 0 <= dataIndex < length
    requires -(padding + 1) <= j <= padding + 1 && dataIndex + j != length
    ensures Neighbour(dataIndex, j, length) in VisibleElementsAsWritten(dataIndex, length, padding)
  {
    var rb := dataIndex + padding + 1;
    ModNear(dataIndex + j, length);
    ModNear(dataIndex - padding - 1, length);
    WindowMembers(LeftBoundAdjusted(dataIndex, length, padding),
      if rb > length then rb - length else rb, length, Neighbour(dataIndex, j, length));
  }

  /** One neighbour of `dataIndex` in the corrected window. */
  lemma CorrectedHasNeighbour(dataIndex: int, length: int, padding: int, j: int)
    requires 0 <= padding && 2 * padding + 3 <= length && 0 <= dataIndex < length
    requires -(padding + 1) <= j <= padding + 1
    ensures Neighbour(dataIndex, j, length) in VisibleElements(dataIndex, length, padding)
  {
    var rb := dataIndex + padding + 1;
    ModNear(dataIndex + j, length);
    ModNear(dataIndex - padding - 1, length);
    WindowMembers(LeftBoundAdjusted(dataIndex, length, padding),
      if rb >= length then rb - length else rb, length, Neighbour(dataIndex, j, length));
  }

  /**
   * The window as written holds only values in `[0, length]`, and holds every
   * index within circular distance `padding + 1` of `dataIndex` except one:
   * when `dataIndex + padding + 1 == length` it holds `length` in place of 0.
   */
  lemma VisibleWindowAsWrittenCovers(dataIndex: int, length: int, padding: int)
    requires 0 <= padding && 2 * padding + 3 <= length && 0 <= dataIndex < length
    ensures forall x :: x in VisibleElementsAsWritten(dataIndex, length, padding) ==> 0 <= x <= length
    ensures forall j :: -(padding + 1) <= j <= padding + 1 && dataIndex + j != length ==>
      Neighbour(dataIndex, j, length) in VisibleElementsAsWritten(dataIndex, length, padding)
  {
    var rb := dataIndex + padding + 1;
    forall x | x in VisibleElementsAsWritten(dataIndex, length, padding)
      ensures 0 <= x <= length
    {
      WindowInRange(LeftBoundAdjusted(dataIndex, length, padding),
        if rb > length then rb - length else rb, length, x);
    }
    forall j | -(padding + 1) <= j <= padding + 1 && dataIndex + j != length
      ensures Neighbour(dataIndex, j, length) in VisibleElementsAsWritten(dataIndex, length, padding)
    {
      AsWrittenHasNeighbour(dataIndex, length, padding, j);
    }
  }

  /**
   * The corrected window holds only values in `[0, length]` and every index
   * within circular distance `padding + 1` of `dataIndex`.
   */
  lemma VisibleWindowCovers(dataIndex: int, length: int, padding: int)
    requires 0 <= padding && 2 * padding + 3 <= length && 0 <= dataIndex < length
    ensures forall x :: x in VisibleElements(dataIndex, length, padding) ==> 0 <= x <= length
    ensures forall j :: -(padding + 1) <= j <= padding + 1 ==>
      Neighbour(dataIndex, j, length) in VisibleElements(dataIndex, length, padding)
  {
    var rb := dataIndex + padding + 1;
    forall x | x in VisibleElements(dataIndex, length, padding)
      ensures 0 <= x <= length
    {
      WindowInRange(LeftBoundAdjusted(dataIndex, length, padding),
        if rb >= length then rb - length else rb, length, x);
    }
    forall j | -(padding + 1) <= j <= padding + 1
      ensures Neighbour(dataIndex, j, length) in VisibleElements(dataIndex, length, padding)
    {
      CorrectedHasNeighbour(dataIndex, length, padding, j);
    }
  }

  /**
   * The window as written misses a neighbour: with 40 items, padding 3 and
   * data index 36, index 0 is 4 = padding + 1 steps ahead, but the window is
   * `32 .. 40` and holds the non-existent index 40 instead.
   */
  lemma VisibleWindowSeamCounterexample()
    ensures Neighbour(36, 4, 40) == 0
    ensures 0 !in VisibleElementsAsWritten(36, 40, 3)
    ensures 40 in VisibleElementsAsWritten(36, 40, 3)
    ensures 0 in VisibleElements(36, 40, 3)
  {
    WindowMembers(32, 40, 40, 0);
    WindowMembers(32, 40, 40, 40);
    WindowMembers(32, 0, 40, 0);
  }
}

=== FILE: layout.dfy ===
/**
 * The presentation filter of `CircleListLayout` (src/CircleListLayout.js):
 * each ring slot of `displayData` is rendered when its animated transform
 * values exist and its data index lies in the rendered window; a rendered
 * slot carries the caller's key, its own slot's transform values, and the
 * element `renderItem` builds from the untagged item and its data index.
 * The JSX tree, the styles and the pan handlers are not modelled.
 */
module Layout {
  import opened Optional
  import opened RingMath
  import opened Geometry
  import opened Binding
  import opened Controller
  import opened Coherence

  /**
   * The animated values the component keeps per slot, keyed by slot index:
   * `scale<i>`, `translateX<i>` and `translateY<i>`.  A missing key is an
   * undefined state entry.
   */
  datatype AnimatedState<V> = AnimatedState(scale: map<int, V>, translateX: map<int, V>, translateY: map<int, V>)

  /** One rendered child: its key, the slot it shows, its transform and its content. */
  datatype Entry<K, V, E> = Entry(key: K, slot: int, translateX: V, translateY: V, scale: Option<V>, element: E)

  /** Whether slot `i` passes the four-way test that guards rendering. */
  predicate Shown<T, V>(displayData: seq<Tagged<T>>, state: AnimatedState<V>, bounds: Option<seq<int>>, i: int)
    requires 0 <= i < |displayData|
  {
    && i in state.translateX
    && i in state.translateY
    && bounds.Some?
    && displayData[i].dataIndex in bounds.value
  }

  /** The child built for a shown slot. */
  function EntryAt<T, K, V, E>(displayData: seq<Tagged<T>>, state: AnimatedState<V>, i: int,
                               keyExtractor: (Tagged<T>, int) -> K, renderItem: (T, int) -> E): Entry<K, V, E>
    requires 0 <= i < |displayData| && i in state.translateX && i in state.translateY
  {
    Entry(keyExtractor(displayData[i], i), i,
          state.translateX[i], state.translateY[i],
          if i in state.scale then Some(state.scale[i]) else None,
          renderItem(Untag(displayData[i]), displayData[i].dataIndex))
  }

  /**
   * The `displayData.map` from slot `from` on, keeping only the children
   * React renders: each child shows a shown slot and is built from that
   * slot, and the slots appear in increasing order, so none twice.
   */
  function RenderFrom<T, K, V, E>(displayData: seq<Tagged<T>>, state: AnimatedState<V>, bounds: Option<seq<int>>,
                                  keyExtractor: (Tagged<T>, int) -> K, renderItem: (T, int) -> E,
                                  from: nat): (r: seq<Entry<K, V, E>>)
    ensures forall k :: 0 <= k < |r| ==>
      && from <= r[k].slot < |displayData|
      && Shown(displayData, state, bounds, r[k].slot)
      && r[k] == EntryAt(displayData, state, r[k].slot, keyExtractor, renderItem)
    ensures forall k, l :: 0 <= k < l < |r| ==> r[k].slot < r[l].slot
    decreases |displayData| - from
  {
    if from >= |displayData| then []
    else
      var rest := RenderFrom(displayData, state, bounds, keyExtractor, renderItem, from + 1);
      if Shown(displayData, state, bounds, from) then
        [EntryAt(displayData, state, from, keyExtractor, renderItem)] + rest
      else
        rest
  }

  /** Every shown slot from `from` on has a child, so the filter drops exactly the hidden slots. */
  lemma {:induction false} RenderFromComplete<T, K, V, E>(
    displayData: seq<Tagged<T>>, state: AnimatedState<V>, bounds: Option<seq<int>>,
    keyExtractor: (Tagged<T>, int) -> K, renderItem: (T, int) -> E, from: nat, i: int)
    requires from <= i < |displayData|
    ensures var r := RenderFrom(displayData, state, bounds, keyExtractor, renderItem, from);
            Shown(displayData, state, bounds, i) ==> exists k :: 0 <= k < |r| && r[k].slot == i
    ensures var r := RenderFrom(displayData, state, bounds, keyExtractor, renderItem, from);
            (exists k :: 0 <= k < |r| && r[k].slot == i) ==> Shown(displayData, state, bounds, i)
    decreases |displayData| - from
  {
    var r := RenderFrom(displayData, state, bounds, keyExtractor, renderItem, from);
    var rest := RenderFrom(displayData, state, bounds, keyExtractor, renderItem, from + 1);
    if Shown(displayData, state, bounds, from) {
      assert r == [EntryAt(displayData, state, from, keyExtractor, renderItem)] + rest;
      if i == from {
        assert r[0].slot == i;
      } else {
        RenderFromComplete(displayData, state, bounds, keyExtractor, renderItem, from + 1, i);
        if Shown(displayData, state, bounds, i) {
          var k :| 0 <= k < |rest| && rest[k].slot == i;
          assert r[k + 1] == rest[k];
          assert 0 <= k + 1 < |r| && r[k + 1].slot == i;
        } else {
          forall k | 0 <= k < |r|
            ensures r[k].slot != i
          {
            if k > 0 {
              assert r[k] == rest[k - 1];
            }
          }
        }
      }
    } else {
      assert r == rest;
      if i > from {
        RenderFromComplete(displayData, state, bounds, keyExtractor, renderItem, from + 1, i);
      }
    }
  }

  /** `CircleListLayout`'s children for the whole display window. */
  function Render<T, K, V, E>(displayData: seq<Tagged<T>>, state: AnimatedState<V>, bounds: Option<seq<int>>,
                              keyExtractor: (Tagged<T>, int) -> K, renderItem: (T, int) -> E): (r: seq<Entry<K, V, E>>)
    ensures |r| <= |displayData|
    ensures forall k :: 0 <= k < |r| ==>
      && 0 <= r[k].slot < |displayData|
      && Shown(displayData, state, bounds, r[k].slot)
      && r[k] == EntryAt(displayData, state, r[k].slot, keyExtractor, renderItem)
      && r[k].translateX == state.translateX[r[k].slot] && r[k].translateY == state.translateY[r[k].slot]
      && r[k].key == keyExtractor(displayData[r[k].slot], r[k].slot)
      && r[k].element == renderItem(Untag(displayData[r[k].slot]), displayData[r[k].slot].dataIndex)
    ensures forall k, l :: 0 <= k < l < |r| ==> r[k].slot < r[l].slot
    ensures forall i :: 0 <= i < |displayData| ==>
      (Shown(displayData, state, bounds, i) <==> exists k :: 0 <= k < |r| && r[k].slot == i)
  {
    var r := RenderFrom(displayData, state, bounds, keyExtractor, renderItem, 0);
    RenderedSlotsBound(r, |displayData|);
    assert forall i :: 0 <= i < |displayData| ==>
      (Shown(displayData, state, bounds, i) <==> exists k :: 0 <= k < |r| && r[k].slot == i) by {
      forall i | 0 <= i < |displayData| {
        RenderFromComplete(displayData, state, bounds, keyExtractor, renderItem, 0, i);
      }
    }
    r
  }

  /** Strictly increasing slots in `[0, n)` number at most `n`. */
  lemma {:induction false} RenderedSlotsBound<K, V, E>(r: seq<Entry<K, V, E>>, n: int)
    requires 0 <= n
    requires forall k :: 0 <= k < |r| ==> 0 <= r[k].slot < n
    requires forall k, l :: 0 <= k < l < |r| ==> r[k].slot < r[l].slot
    ensures |r| <= n
    decreases |r|
  {
    if |r| > 0 {
      var last := r[|r| - 1];
      var init := r[..|r| - 1];
      assert forall k :: 0 <= k < |init| ==> init[k] == r[k] && r[k].slot < last.slot;
      RenderedSlotsBound(init, last.slot);
      assert |init| == |r| - 1 && last.slot < n;
    }
  }

  /**
   * With every slot animated and the component's rendered window passed in,
   * a carousel kept coherent with the corrected window renders the slot
   * holding each item within `padding` places of the selected one, and that
   * child is built from that item.
   */
  lemma {:induction false} SelectedNeighbourhoodRendered<T, K, V, E>(
    cfg: Config, s: Carousel<T>, state: AnimatedState<V>,
    keyExtractor: (Tagged<T>, int) -> K, renderItem: (T, int) -> E, j: int)
    requires Coherent(cfg, CorrectedBounds, s)
    requires forall i :: 0 <= i < cfg.elementCount ==> i in state.translateX && i in state.translateY
    requires -cfg.visibilityPadding <= j <= cfg.visibilityPadding
    ensures var r := Render(s.displayData, state, Some(s.visibleDataBounds), keyExtractor, renderItem);
            var slot := WindowSlot(s.insertionIndexRight, j, cfg.elementCount, cfg.visibilityPadding);
            var index := Neighbour(s.dataIndex, j, |s.data|);
            exists k :: 0 <= k < |r| && r[k].slot == slot
                        && r[k].element == renderItem(Untag(s.data[index]), index)
  {
    var r := Render(s.displayData, state, Some(s.visibleDataBounds), keyExtractor, renderItem);
    var n, p, L := cfg.elementCount, cfg.visibilityPadding, |s.data|;
    var slot := WindowSlot(s.insertionIndexRight, j, n, p);
    var index := Neighbour(s.dataIndex, j, L);
    assert s.displayData[slot] == s.data[index];
    CoherentWindowCovers(cfg, s, j);
    assert Shown(s.displayData, state, Some(s.visibleDataBounds), slot);
    var k :| 0 <= k < |r| && r[k].slot == slot;
    assert r[k].element == renderItem(Untag(s.data[index]), index);
  }

  /**
   * With the window as written, the drag of `DragMissesSeamItem` leaves the
   * slot that holds item 0, three places ahead of the newly selected item,
   * without a child, whatever the animated values.
   */
  lemma {:induction false} AsWrittenDragHidesSeamItem<T, K, V, E>(
    cfg: Config, s: Carousel<T>, dx: real, thetaOffset: real, state: AnimatedState<V>,
    keyExtractor: (Tagged<T>, int) -> K, renderItem: (T, int) -> E)
    requires Coherent(cfg, AsWrittenBounds, s)
    requires cfg.visibilityPadding == 3 && |s.data| == 40 && s.dataIndex == 36
    requires dx < 0.0 && MoveRotationIndex(cfg, s, dx, thetaOffset) != s.rotationIndex
    ensures var r := Move(cfg, AsWrittenBounds, s, dx, thetaOffset);
            var slot := WindowSlot(r.insertionIndexRight, 3, cfg.elementCount, 3);
            var out := Render(r.displayData, state, Some(r.visibleDataBounds), keyExtractor, renderItem);
            && r.displayData[slot] == r.data[0]
            && forall k :: 0 <= k < |out| ==> out[k].slot != slot
  {
    var r := Move(cfg, AsWrittenBounds, s, dx, thetaOffset);
    DragMissesSeamItem(cfg, s, dx, thetaOffset);
    var slot := WindowSlot(r.insertionIndexRight, 3, cfg.elementCount, 3);
    assert r.displayData[slot] == r.data[Neighbour(37, 3, 40)];
    assert !Shown(r.displayData, state, Some(r.visibleDataBounds), slot);
  }
}

=== FILE: mock_data.dfy ===
/**
 * The example app's mock data (example/src/mockData/index.js): items whose
 * `id` and `value` both equal their position, built by a recursion that
 * appends `count` and continues while `count` is below the requested count.
 */
module MockData {

  datatype MockItem = MockItem(id: int, value: int)

  /**
   * The inner `_calc` recursion: append the item for `count`, then continue
   * with `count + 1` while `count < elementCount`.  It appends the items
   * `count`, `count + 1`, ..., up to `elementCount`, and at least one.
   */
  function Calc(data: seq<MockItem>, count: int, elementCount: int): (r: seq<MockItem>)
    ensures |r| == |data| + (if count < elementCount then elementCount - count + 1 else 1)
    ensures r[..|data|] == data
    ensures forall i :: |data| <= i < |r| ==> r[i] == MockItem(count + i - |data|, count + i - |data|)
    decreases elementCount - count
  {
    var newData := data + [MockItem(count, count)];
    if count < elementCount then Calc(newData, count + 1, elementCount)
    else newData
  }

  /** `generateMockData`. */
  function GenerateMockData(elementCount: int): (r: seq<MockItem>)
    ensures elementCount >= 0 ==> |r| == elementCount + 1
    ensures elementCount <= 0 ==> r == [MockItem(0, 0)]
    ensures forall i :: 0 <= i < |r| ==> r[i] == MockItem(i, i)
  {
    Calc([], 0, elementCount)
  }

  /** The exported `mockData`: by `GenerateMockData`, the 41 items 0 to 40. */
  const Items: seq<MockItem> := GenerateMockData(40)
}

=== FILE: optional.dfy ===
/** A value that may be absent, for JavaScript properties that may be `undefined`. */
module Optional {
  datatype Option<+T> = None | Some(value: T)
}

=== FILE: ring_math.dfy ===
/**
 * Circular index arithmetic shared by the carousel: the one-step wrap that
 * `_getDataIndex` and `_getInsertionIndex` perform (src/CircleList.js), its
 * closed form as Euclidean `%`, and a few facts about `%` used elsewhere.
 */
module RingMath {

  /** Swipe direction; a drag with negative `dx` is `Left`. */
  datatype Direction = Left | Right

  /**
   * One step of the wrap-once stepping: `Left` increments and subtracts
   * `length` when the result reaches it, `Right` decrements and adds `length`
   * when the result drops below zero.  Only one wrap is ever applied.
   */
  function Step(i: int, length: int, dir: Direction): (r: int)
    ensures 0 <= i < length && dir == Left ==> r == (i + 1) % length
    ensures 0 <= i < length && dir == Right ==> r == (i - 1) % length
    ensures 0 <= i < length ==> 0 <= r < length
  {
    match dir
    case Left => if i + 1 >= length then i + 1 - length else i + 1
    case Right => if i - 1 < 0 then length + (i - 1) else i - 1
  }

  /** The index `k` places from `i` around a ring of `length` positions. */
  function Neighbour(i: int, k: int, length: int): (r: int)
    requires length > 0
    ensures 0 <= r < length
  {
    (i + k) % length
  }

  /** Moving `a` places and then `b` places is moving `a + b` places. */
  lemma NeighbourAdd(i: int, a: int, b: int, length: int)
    requires length > 0
    ensures Neighbour(Neighbour(i, a, length), b, length) == Neighbour(i, a + b, length)
  {
    ModAdd(i + a, b, length);
  }

  /** Distinct offsets less than a full turn apart name distinct positions. */
  lemma NeighbourDistinct(i: int, a: int, b: int, length: int)
    requires length > 0 && a != b && -length < a - b < length
    ensures Neighbour(i, a, length) != Neighbour(i, b, length)
  {
    if Neighbour(i, a, length) == Neighbour(i, b, length) {
      ModInjective(i + a, i + b, length);
    }
  }

  /** Moving zero places from an in-range position stays put. */
  lemma NeighbourZero(i: int, length: int)
    requires 0 <= i < length
    ensures Neighbour(i, 0, length) == i
  {
  }

  /** One step left or right is the neighbour one place up or down. */
  lemma StepIsNeighbour(i: int, length: int, dir: Direction)
    requires 0 <= i < length
    ensures Step(i, length, dir) == Neighbour(i, if dir == Left then 1 else -1, length)
  {
  }

  /** `k` steps in direction `dir`, starting from `i`. */
  function Iterate(i: int, length: int, dir: Direction, k: nat): int
    decreases k
  {
    if k == 0 then i else Iterate(Step(i, length, dir), length, dir, k - 1)
  }

  /** Stepping left then right (or right then left) returns to the start. */
  lemma StepInverse(i: int, length: int)
    requires 0 <= i < length
    ensures Step(Step(i, length, Left), length, Right) == i
    ensures Step(Step(i, length, Right), length, Left) == i
  {
  }

  /** `k` steps land on `(i + k) mod length` going left, `(i - k) mod length` going right. */
  lemma {:induction false} IterateClosedForm(i: int, length: int, dir: Direction, k: nat)
    requires 0 <= i < length
    ensures dir == Left ==> Iterate(i, length, dir, k) == (i + k) % length
    ensures dir == Right ==> Iterate(i, length, dir, k) == (i - k) % length
    decreases k
  {
    if k == 0 {
      ModInRange(i, length);
    } else {
      var j := Step(i, length, dir);
      IterateClosedForm(j, length, dir, k - 1);
      if dir == Left {
        ModAdd(i + 1, k - 1, length);
      } else {
        ModAdd(i - 1, -(k - 1), length);
      }
    }
  }

  /** The remainder is the unique `r` in `[0, n)` with `x == q * n + r`. */
  lemma ModUnique(x: int, q: int, r: int, n: int)
    requires n > 0 && 0 <= r < n && x == q * n + r
    ensures x % n == r
  {
    var q2 := x / n;
    assert x == q2 * n + x % n;
    assert (q - q2) * n == x % n - r;
    if q - q2 >= 1 {
      assert false;
    } else if q - q2 <= -1 {
      assert false;
    }
  }

  /** Adding a multiple of `n` does not change the remainder. */
  lemma ModAddMultiple(x: int, q: int, n: int)
    requires n > 0
    ensures (x + q * n) % n == x % n
  {
    assert x == (x / n) * n + x % n;
    assert x + q * n == (x / n + q) * n + x % n;
    ModUnique(x + q * n, x / n + q, x % n, n);
  }

  /** Reducing the left operand first does not change the remainder of a sum. */
  lemma ModAdd(a: int, b: int, n: int)
    requires n > 0
    ensures (a % n + b) % n == (a + b) % n
  {
    var q := a / n;
    assert a == q * n + a % n;
    ModAddMultiple(a % n + b, q, n);
  }

  /** Two integers closer than `n` with the same remainder are equal. */
  lemma ModInjective(x: int, y: int, n: int)
    requires n > 0
    requires -n < x - y < n
    requires x % n == y % n
    ensures x == y
  {
    var qx, qy := x / n, y / n;
    assert x == qx * n + x % n;
    assert y == qy * n + y % n;
    assert x - y == (qx - qy) * n;
    if qx - qy >= 1 {
      assert false;
    } else if qx - qy <= -1 {
      assert false;
    }
  }

  /** The remainder of a value already in `[0, n)` is the value itself. */
  lemma ModInRange(x: int, n: int)
    requires 0 <= x < n
    ensures x % n == x
  {
  }

  /** The remainder of a value less than one period outside `[0, n)`. */
  lemma ModNear(x: int, n: int)
    requires n > 0 && -n <= x < 2 * n
    ensures x < 0 ==> x % n == x + n
    ensures 0 <= x < n ==> x % n == x
    ensures n <= x ==> x % n == x - n
  {
    if x < 0 {
      ModUnique(x, -1, x + n, n);
    } else if x >= n {
      ModUnique(x, 1, x - n, n);
    }
  }
}

=== FILE: scroll_desync.dfy ===
/**
 * A concrete run of `scrollToIndex` in which the window update guarded by
 * the `rotationIndex` read at the start of the call is skipped on the last
 * step, although the data index still advances: the data cursors end one
 * place behind.  A ring of four slots without padding over ten items is
 * released after a leftward drag at rest, then scrolled to index 4.  The
 * rendered window is the one as written throughout, so the corrected run
 * differs from the one as written in the rebind guard alone.
 */
module ScrollDesync {
  import opened RingMath
  import opened Geometry
  import opened Controller
  import opened Coherence

  /** Four slots, no padding. */
  const Ring := Config(4, 0)

  /** The snap offset of slot `k` of `Ring`. */
  function SnapAt(k: int): real {
    2.0 * Pi - k as real * Theta(4)
  }

  /** `Closest` on `Ring` is `_getClosestIndex` over four breakpoints a quarter turn apart. */
  lemma RingClosest(offset: real, dir: Direction)
    ensures Closest(Ring, offset, dir) == ClosestIndex(offset, Breakpoints(4, Theta(4)), Theta(4), dir)
  {
    assert RingBreakpoints(Ring) == Breakpoints(4, Theta(4));
  }

  lemma SnapLeft(k: int)
    requires 1 <= k < 4
    ensures ClosestIndex(2.0 * Pi - k as real * Theta(4), Breakpoints(4, Theta(4)), Theta(4), Left) == k
  {
    SnapIsStable(4, k, Left);
  }

  /** At the snap offset of slot `k`, a leftward query answers `k` for `k` in 1..3. */
  lemma ClosestAtSnap(k: int)
    requires 1 <= k < 4
    ensures Closest(Ring, SnapAt(k), Left) == k
  {
    RingClosest(SnapAt(k), Left);
    SnapLeft(k);
  }

  /** The release after a leftward drag at rest snaps to slot 0 at offset `2π`. */
  lemma ReleaseAtRest<T>(data: seq<T>)
    requires |data| == 10
    ensures var s := Release(Ring, Init(Ring, AsWrittenBounds, data), -1.0);
            && s.rotationIndex == 0 && s.rotationOffset == 2.0 * Pi
            && s.dataIndex == 0 && s.dataIndexLeft == 9 && s.dataIndexRight == 1
            && Coherent(Ring, AsWrittenBounds, s)
  {
    ClosestAtRest(4);
    InitCoherent(Ring, AsWrittenBounds, data);
    ReleaseCoherent(Ring, AsWrittenBounds, Init(Ring, AsWrittenBounds, data), -1.0);
  }

  /** From the snap offset of slot `k - 1`, turning left by a slot angle reaches that of slot `k`. */
  lemma LeftTurnAt(k: int)
    requires 1 <= k < 4
    ensures ResetRevolution(SnapAt(k - 1)) - Theta(4) == SnapAt(k)
    ensures Closest(Ring, SnapAt(k), Left) == k
  {
    var t := Theta(4);
    assert t * 4.0 == 2.0 * Pi;
    if k == 1 {
      assert SnapAt(0) == 4.0 * t && SnapAt(1) == 3.0 * t;
    } else if k == 2 {
      assert SnapAt(1) == 3.0 * t && SnapAt(2) == 2.0 * t;
    } else {
      assert SnapAt(2) == 2.0 * t && SnapAt(3) == t;
    }
    ClosestAtSnap(k);
  }

  /** A non-final leftward step from the snap offset of slot `k - 1` rebinds the ring buffer. */
  lemma LeftStepAt<T>(s: Carousel<T>, k: int)
    requires Valid(Ring, s) && 1 <= k < 4
    requires s.rotationOffset == SnapAt(k - 1)
    ensures var r := ScrollStep(Ring, AsWrittenBounds, s, Left, false, SinceScrollStart(0));
            && r.rotationOffset == SnapAt(k)
            && r.dataIndexLeft == Neighbour(s.dataIndexLeft, 1, |s.data|)
  {
    LeftTurnAt(k);
  }

  /** The final turn of 1.1 slot angles from the snap offset of slot 3 lands just below rest, on slot 0. */
  lemma LastTurn()
    ensures ResetRevolution(SnapAt(3)) - Theta(4) * 1.1 == -0.1 * Theta(4)
    ensures Closest(Ring, -0.1 * Theta(4), Left) == 0
  {
    var t := Theta(4);
    assert t * 4.0 == 2.0 * Pi;
    assert SnapAt(3) == t;
    ClosestJustBelowRest(4, -0.1 * t, Left);
    RingClosest(-0.1 * t, Left);
  }

  /** The final leftward step from the snap offset of slot 3 leaves the ring buffer alone. */
  lemma LeftLastStep<T>(s: Carousel<T>)
    requires Valid(Ring, s)
    requires s.rotationOffset == SnapAt(3)
    ensures var r := ScrollStep(Ring, AsWrittenBounds, s, Left, true, SinceScrollStart(0));
            && r.dataIndexLeft == s.dataIndexLeft
            && r.rotationOffset == -0.1 * Theta(4)
  {
    LastTurn();
  }

  /**
   * The leftward steps of the as-written scroll from step `count`, starting at
   * the snap offset of slot `count`: every step but the last rebinds the ring
   * buffer, the last one lands on slot 0, the captured rotation index, and
   * does not.
   */
  lemma {:induction false} AsWrittenSteps<T>(s: Carousel<T>, count: int)
    requires Valid(Ring, s) && |s.data| == 10 && 0 <= count < 4
    requires s.rotationOffset == SnapAt(count)
    requires s.dataIndexLeft == Neighbour(9, count, 10)
    ensures ScrollSteps(Ring, AsWrittenBounds, s, Left, 4, count, SinceScrollStart(0)).dataIndexLeft == 2
    decreases 4 - count
  {
    var policy := SinceScrollStart(0);
    if count + 1 < 4 {
      LeftStepAt(s, count + 1);
      NeighbourAdd(9, count, 1, 10);
      ScrollStepsNext(Ring, AsWrittenBounds, s, Left, 4, count, policy);
      AsWrittenSteps(ScrollStep(Ring, AsWrittenBounds, s, Left, false, policy), count + 1);
    } else {
      LeftLastStep(s);
      ScrollStepsLast(Ring, AsWrittenBounds, s, Left, 4, count, policy);
    }
  }

  /** From the snapped rest state, the as-written scroll to index 4 leaves the left data cursor at 2. */
  lemma {:induction false} AsWrittenScroll<T>(s: Carousel<T>)
    requires Valid(Ring, s) && |s.data| == 10
    requires s.dataIndex == 0 && s.dataIndexLeft == 9 && s.rotationIndex == 0 && s.rotationOffset == 2.0 * Pi
    ensures var r := ScrollToIndexAsWritten(Ring, s, 4);
            r.dataIndex == 4 && r.dataIndexLeft == 2
  {
    assert ScrollPlan(0, 4, 10) == Plan(Left, 4);
    var begun := s.(log := s.log + [ScrollBegin(0)]);
    AsWrittenSteps(begun, 0);
  }

  /**
   * The as-written scroll to index 4 reaches the index but leaves the left
   * data cursor at 2 instead of 3, so the state is no longer coherent.
   */
  lemma {:induction false} ScrollDesyncsCursors<T>(data: seq<T>)
    requires |data| == 10
    ensures var s := Release(Ring, Init(Ring, AsWrittenBounds, data), -1.0);
            var asWritten := ScrollToIndexAsWritten(Ring, s, 4);
            && Coherent(Ring, AsWrittenBounds, s)
            && asWritten.dataIndex == 4 && asWritten.dataIndexLeft == 2
            && Neighbour(4, -1, 10) == 3
            && !Coherent(Ring, AsWrittenBounds, asWritten)
  {
    var s := Release(Ring, Init(Ring, AsWrittenBounds, data), -1.0);
    ReleaseAtRest(data);
    AsWrittenScroll(s);
  }

  /** The corrected scroll over the same run reaches index 4 with the cursors in step. */
  lemma {:induction false} ScrollKeepsCursors<T>(data: seq<T>)
    requires |data| == 10
    ensures var s := Release(Ring, Init(Ring, AsWrittenBounds, data), -1.0);
            var corrected := ScrollToIndex(Ring, AsWrittenBounds, s, 4);
            && corrected.dataIndex == 4 && corrected.dataIndexLeft == 3
            && Coherent(Ring, AsWrittenBounds, corrected)
  {
    var s := Release(Ring, Init(Ring, AsWrittenBounds, data), -1.0);
    ReleaseAtRest(data);
    ScrollToIndexCoherent(Ring, AsWrittenBounds, s, 4);
  }
}
